=== FILE: README.md ===
# nedok-web core in Dafny

This is a functional model of the deterministic core of the nedok-web IoT dashboard. It covers six parts:

- **The socket client's subscription registry** (`Subscriptions`, `websocket.dfy`). This covers the command counter, subscribing, and unsubscribing with its split-based key parsing. It also covers message dispatch, disconnecting and the reconnect counter.
- **The device sidebar** (`Devices`, `devices.dfy`). This covers:
  - profile display names;
  - the profile and search filter;
  - the parent and children maps built from relations;
  - root and standalone devices, and the grouping loop;
  - the fixed group order, the per-profile counts and the row indentation.
- **The gateway table** (`Gateways`, `gateways.dfy`). This covers row derivation, the online-first sort, the pagination handlers and buttons, the "a-b of n" label, and the merge of pushed status.
- **The authentication helpers** (`Auth`, `auth.dfy`). This covers token expiry, the stored token, clearing auth data, and classifying auth errors.
- **The cookie helpers** (`Cookies`, `cookies.dfy`). This covers the `setCookie` string builder, the `getCookie`/`hasCookie` lookup over `document.cookie`, `removeCookie`, and clearing the `localStorage` keys.
- **The login form's input handling** (`LoginForm`, `login_form.dfy`). This covers white-space trimming, the warning kept in step with the fields, and what a successful login writes.

Four modules are shared:
- `Text` holds the JavaScript string primitives with fixed semantics: `split`, `join`, `includes`, `startsWith`, `trim` with the ECMAScript white-space set, and decimal rendering.
- `Seqs` holds `Array.prototype.filter` and its algebra.
- `Ranking` holds a stable sort by a small integer key, written as a bucket sort. The group order of the device sidebar uses it.
- `Optional` holds `Option`.

Every operation is a pure function over immutable data. Browser state (the cookie jar and `localStorage`) is a value passed in and returned.

Primitives whose behaviour belongs to the platform are function parameters:
- `enc` and `dec` for `encodeURIComponent` and `decodeURIComponent`. `dec` gives no value where `decodeURIComponent` throws a URIError, and `getCookie`, `hasCookie` and `isAuthenticated` then return `Threw`;
- `utc` for `Date.prototype.toUTCString`;
- `decode` for `JSON.parse(atob(..))` read down to the `exp` claim;
- `lower` for `toLowerCase`;
- `compare` for `localeCompare`;
- `toNumber` for the number conversion of a string.

Times (`Date.now()`) and the answer of the login request are plain arguments. `handleSubmit` reads the clock twice, and the model takes the two readings separately (`LoginForm.Clock`).

## Model

| member | source | states |
|---|---|---|
| Text.Trim | src/components/ui/login-form.tsx:28-30 | `trimInput` leaves no white space at either end and never lengthens the text |
| Text.TrimKeepsInterior | src/components/ui/login-form.tsx:28-30 | the trimmed text is a contiguous slice of the input, so interior white space survives |
| Text.TrimFixedIff | src/components/ui/login-form.tsx:28-35 | `trimInput(s) == s` exactly when `hasLeadingTrailingSpaces(s)` is false |
| Text.TrimIdempotent | src/components/ui/login-form.tsx:28-30 | trimming twice is trimming once |
| Text.TrimSkipsLeadingSpace | src/components/ui/login-form.tsx:29 | a white-space character in front does not change the trimmed value |
| Text.Contains | src/utils/authUtils.ts:35-36 | `includes` holds exactly when the part occurs at some position |
| Text.Split | src/services/websocketService.ts:227 | `split` gives at least one piece and no piece contains the separator |
| Text.SplitJoin | src/services/websocketService.ts:227-228 | splitting pieces joined by a separator that none contains gives the pieces back |
| Text.JoinSplit | src/services/websocketService.ts:227 | joining the pieces of a split restores the string |
| Text.NatToStringRoundTrip | src/pages/Home/sections/GatewayListSection/GatewayListSection.tsx:441 | the decimal text of a number reads back as that number |
| Seqs.Keep | src/pages/Home/sections/DeviceListSection/DeviceListSection.tsx:148 | `filter` returns an order-preserving subsequence holding exactly the accepted elements |
| Seqs.KeepMultiset | src/pages/Home/sections/DeviceListSection/DeviceListSection.tsx:148 | `filter` keeps every accepted occurrence and drops every other |
| Seqs.KeepKeep | src/pages/Home/sections/DeviceListSection/DeviceListSection.tsx:147-157 | two filters in a row are one filter by the conjunction |
| Cookies.Attributes | src/utils/cookieUtils.ts:19-37 | the attributes come in the fixed order expires, path, domain, secure, samesite |
| Cookies.AttributesOnlyWhenSet | src/utils/cookieUtils.ts:19-37 | each attribute is present exactly when its option is set and truthy, with that option's value |
| Cookies.SetCookie | src/utils/cookieUtils.ts:16-40 | the cookie string starts with `enc(name)=enc(value)` and continues with exactly the rendered attributes |
| Cookies.RemoveCookie | src/utils/cookieUtils.ts:62-69 | `removeCookie` writes an empty value expiring at the epoch, followed by the caller's other options |
| Cookies.FindValue | src/utils/cookieUtils.ts:49-56 | no value exactly when no trimmed piece starts with the key; otherwise the remainder of the first piece that does |
| Cookies.GetCookie | src/utils/cookieUtils.ts:45-57 | `getCookie` returns null exactly when no trimmed `;`-piece starts with `enc(name)=`; otherwise it returns the decoded remainder of the first such piece, or throws when that remainder is not a valid escape |
| Cookies.HasCookie | src/utils/cookieUtils.ts:74-76 | `hasCookie` throws exactly when the first matching piece does not decode; otherwise it returns whether some piece matches |
| Cookies.EntryMatchesIff | src/utils/cookieUtils.ts:46-51 | a jar entry matches the lookup exactly when its name is the queried name; a name that merely extends it never matches |
| Cookies.GetCookieFromJar | src/utils/cookieUtils.ts:45-57 | over a jar of encoded entries, `getCookie` decodes the value of the first entry with the encoded name (throwing when it does not decode), and returns null when there is none |
| Cookies.GetCookieAfterForget | src/utils/cookieUtils.ts:45-57 | once every entry of a name is gone, `getCookie` of that name returns null without throwing |
| Cookies.ClearLocalStorageAuthData | src/utils/cookieUtils.ts:81-84 | both token keys are gone and every other key keeps its value |
| Auth.IsTokenExpired | src/utils/authUtils.ts:3-13 | an empty token, a missing payload segment, or an unreadable payload is expired; no `exp` means never expired; otherwise expired iff `exp < now/1000` |
| Auth.ExpiryIsPermanent | src/utils/authUtils.ts:7-9 | a token expired at one time is expired at every later time |
| Auth.AcceptedAtExpiryInstant | src/utils/authUtils.ts:9 | at exactly `exp` seconds the token is still accepted; one millisecond later it is expired |
| Auth.AuthenticatedIff | src/utils/authUtils.ts:28-31 | returns true exactly when the jar's first access-token entry decodes to a token that is not expired; throws exactly when that entry does not decode |
| Auth.ClearAuthData | src/utils/authUtils.ts:15-22 | both token cookies are rewritten empty, expiring at the epoch with path `/`, and both `localStorage` keys are removed |
| Auth.ClearedJar | src/utils/authUtils.ts:15-22 | afterwards no token cookie is left and every other cookie is kept, in order |
| Auth.NotAuthenticatedAfterClear | src/utils/authUtils.ts:15-31 | after `clearAuthData`, `isAuthenticated` returns false without throwing |
| Auth.HandleAuthError | src/utils/authUtils.ts:33-41 | true exactly for status 401 or a message containing "401", "Unauthorized" or "Token expired"; auth data is cleared exactly then |
| Auth.MarkerAnywhereIsAuthError | src/utils/authUtils.ts:35-36 | "Token expired" anywhere in a message makes it an auth error |
| Auth.LoggedOutAfterAuthError | src/utils/authUtils.ts:33-41 | after an auth error, `isAuthenticated` returns false without throwing |
| LoginForm.InputChange | src/components/ui/login-form.tsx:99-117 | the typed field is stored and the other kept; a dirty value shows that field's warning; the warning is cleared only when both fields are clean |
| LoginForm.InputChangeKeepsConsistent | src/components/ui/login-form.tsx:106-116 | typing keeps "a warning is shown iff some field has edge white space" |
| LoginForm.TokenCookieText | src/components/ui/login-form.tsx:66-70 | a token cookie reads `name=value; expires=..; path=/; samesite=Strict` |
| LoginForm.Submit | src/components/ui/login-form.tsx:37-97 | trimmed credentials are sent; warning iff a field had edge white space; on success the access cookie expires 1 h after the first clock reading and the refresh cookie 7 days after the second, and storage is cleared; on failure a non-empty message is shown as-is, otherwise "Login failed. Please try again." |
| LoginForm.SubmitKeepsConsistent | src/components/ui/login-form.tsx:39-50 | submitting keeps the warning invariant |
| LoginForm.ResubmitIsSilent | src/components/ui/login-form.tsx:44-56 | resubmitting what was sent sends it unchanged and warns of nothing |
| LoginForm.LeadingSpaceNotSent | src/components/ui/login-form.tsx:53-56 | white space typed before the email does not reach the server |
| LoginForm.AlwaysConsistent | src/components/ui/login-form.tsx:37-117 | from the initial form, any run of typing and submitting keeps the warning invariant |
| Subscriptions.GenerateCmdId | src/services/websocketService.ts:386-388 | the new id is exactly the old counter plus one and becomes the counter; nothing else changes |
| Subscriptions.FirstIdIsOne | src/services/websocketService.ts:50 | a fresh client issues 1 first |
| Subscriptions.Send | src/services/websocketService.ts:299-307 | a command is sent exactly when there is a socket and it is connected |
| Subscriptions.AddCallback | src/services/websocketService.ts:157-160 | the key gains the callback and every other key is unchanged |
| Subscriptions.AddCallbackIdempotent | src/services/websocketService.ts:157-160 | adding the same callback twice is adding it once |
| Subscriptions.SubscribeToTelemetry | src/services/websocketService.ts:144-172 | fails iff not connected or no socket; otherwise registers under `telemetry_<id>_<keys>`, takes the next id and sends the comma-joined keys |
| Subscriptions.SubscribeToAttributes | src/services/websocketService.ts:177-207 | fails iff not connected or no socket; otherwise registers under `attributes_<TYPE>_<id>`, takes the next id and sends the entity |
| Subscriptions.ResubscribeIsIdempotent | src/services/websocketService.ts:153-160 | subscribing the same callback twice leaves the same registry |
| Subscriptions.Unsubscribe | src/services/websocketService.ts:212-255 | a no-op when disconnected or the id is unknown; otherwise the entry is removed and the others kept; an id is taken iff the key has 3 or more pieces |
| Subscriptions.UnsubscribeIntended | src/services/websocketService.ts:212-255 | the same registry effect with the key parsing corrected |
| Subscriptions.ParseEntityRoundTrip | src/services/websocketService.ts:186 | an entity type and id written as `<TYPE>_<id>` read back as themselves |
| Subscriptions.TelemetryKeyParts | src/services/websocketService.ts:153 | without `_` in the entity id or keys, a telemetry id splits into "telemetry", the entity id and the keys |
| Subscriptions.AttributesKeyParts | src/services/websocketService.ts:186 | an attribute id splits into "attributes", the pieces of the type name, and the pieces of the entity id |
| Subscriptions.AsWrittenTelemetryDropsFirstKey | src/services/websocketService.ts:233-240 | as written, unsubscribing sends the subscribed keys without the first one |
| Subscriptions.AsWrittenTelemetryExample | src/services/websocketService.ts:234 | subscribing to temperature and humidity, then unsubscribing, sends only "humidity" |
| Subscriptions.AsWrittenAttributesRoundTrip | src/services/websocketService.ts:241-252 | as written, the attribute round trip holds when the type is not ENTITY_VIEW and the id has no `_` |
| Subscriptions.AsWrittenEntityViewMisparsed | src/services/websocketService.ts:242-243 | as written, an ENTITY_VIEW subscription is unsubscribed as type "ENTITY" with id "VIEW" |
| Subscriptions.IntendedTelemetryRoundTrip | src/services/websocketService.ts:163-166 | corrected, unsubscribing sends exactly the keys sent on subscribe |
| Subscriptions.IntendedAttributesRoundTrip | src/services/websocketService.ts:196-201 | corrected, unsubscribing names the subscribed entity for every type and id |
| Subscriptions.HandleMessage | src/services/websocketService.ts:312-348 | exactly the callbacks registered under a non-empty id get the data; errors are reported iff non-empty; unparsable messages are dropped |
| Subscriptions.DeliveredAfterSubscribe | src/services/websocketService.ts:317-327 | after subscribing, data for that id reaches the callback |
| Subscriptions.SilentAfterUnsubscribe | src/services/websocketService.ts:224 | after unsubscribing, data for that id reaches nobody |
| Subscriptions.Disconnect | src/services/websocketService.ts:120-139 | disconnected, no socket, empty registry; counter and attempts are kept |
| Subscriptions.SilentAfterDisconnect | src/services/websocketService.ts:136-137 | after `disconnect` no message reaches a subscriber |
| Subscriptions.NoSubscribeAfterDisconnect | src/services/websocketService.ts:149-151 | after `disconnect` subscribing fails |
| Subscriptions.Connect | src/services/websocketService.ts:71-77 | connecting fails iff the access token is missing or empty |
| Subscriptions.OnOpen | src/services/websocketService.ts:84-91 | opening sets connected and resets the attempts to 0, changing nothing else |
| Subscriptions.HandleReconnection | src/services/websocketService.ts:353-369 | gives up, changing nothing, iff the attempts reached the maximum; otherwise counts one attempt and schedules after the interval |
| Subscriptions.OnClose | src/services/websocketService.ts:97-102 | closing sets disconnected, keeps the registry, then reconnects as above |
| Subscriptions.CloseAfterDisconnectReschedules | src/services/websocketService.ts:131-133 | the `onclose` of a socket closed by `disconnect` still schedules a reconnect |
| Subscriptions.RunInvariants | src/services/websocketService.ts:353-369 | over any run of events, with either reading of `unsubscribe`, the attempts stay within the maximum and the ids sent strictly increase |
| Subscriptions.FreshClientRun | src/services/websocketService.ts:44-56 | from a fresh client, with either reading of `unsubscribe`, sent ids are distinct and at least 1, and attempts never exceed the maximum |
| Devices.ProfileDisplayInfo | src/pages/Home/sections/DeviceListSection/DeviceListSection.tsx:33-41 | the four codes map to Gateway, Sensorbase, File Uploader Device and Camera; any other name to itself; the description is always the name |
| Devices.ProfileNamesLastWins | src/pages/Home/sections/DeviceListSection/DeviceListSection.tsx:64-68 | an id is mapped iff some profile has it, and it maps to the name of the last such profile |
| Devices.FilterDevices | src/pages/Home/sections/DeviceListSection/DeviceListSection.tsx:144-161 | the shown list is the order-preserving subsequence of devices matching the selected profile (unless "all") and containing the trimmed lower-cased search (unless empty) |
| Devices.DeviceCountForProfile | src/pages/Home/sections/DeviceListSection/DeviceListSection.tsx:339-342 | "all" counts every device; any profile's count is at most that |
| Devices.CountMatchesFilter | src/pages/Home/sections/DeviceListSection/DeviceListSection.tsx:339-342 | a profile's count is the length of the list shown when it is selected and nothing is searched |
| Devices.ParentIff | src/pages/Home/sections/DeviceListSection/DeviceListSection.tsx:181-195 | a device has a parent exactly when some relation between known devices points to it |
| Devices.ParentLastWins | src/pages/Home/sections/DeviceListSection/DeviceListSection.tsx:185-186 | the recorded parent is the source of the last such relation |
| Devices.ChildrenIff | src/pages/Home/sections/DeviceListSection/DeviceListSection.tsx:181-195 | `c` is a child of `p` exactly when the relation `p -> c` occurs and both are known devices |
| Devices.ChildrenShape | src/pages/Home/sections/DeviceListSection/DeviceListSection.tsx:188-193 | a children list exists iff a usable relation starts at the device; it is non-empty and has no duplicates |
| Devices.ChildHasParent | src/pages/Home/sections/DeviceListSection/DeviceListSection.tsx:181-195 | every listed child has a parent entry |
| Devices.RootStandaloneExclusive | src/pages/Home/sections/DeviceListSection/DeviceListSection.tsx:165-171 | root and standalone exclude each other, and a device is neither exactly when it has a parent |
| Devices.SelectedIsFirstParentless | src/pages/Home/sections/DeviceListSection/DeviceListSection.tsx:201-229 | the reference selection is an order-preserving choice of parentless devices with distinct ids, covering every parentless id |
| Devices.ProcessedIffSelected | src/pages/Home/sections/DeviceListSection/DeviceListSection.tsx:217-228 | a parentless id is processed exactly when it was selected, so marking children never shuts out an eligible device |
| Devices.GroupContents | src/pages/Home/sections/DeviceListSection/DeviceListSection.tsx:201-230 | each group holds exactly the selected devices of that display name, in filtered order |
| Devices.GroupOrderShape | src/pages/Home/sections/DeviceListSection/DeviceListSection.tsx:214-216 | the group keys are listed once each, exactly the groups present, and no group is empty |
| Devices.GroupedDevices | src/pages/Home/sections/DeviceListSection/DeviceListSection.tsx:197-230 | the grouped devices are exactly the parentless filtered devices, each id once, in filtered order, under their display name |
| Devices.GroupRank | src/pages/Home/sections/DeviceListSection/DeviceListSection.tsx:572-584 | the sort key is the group's position in Camera, Gateway, Sensorbase, File Uploader Device, or 4 for any other name |
| Ranking.StableSort | src/pages/Home/sections/DeviceListSection/DeviceListSection.tsx:482-492 | sorting by a key with a stable comparator `rank(a) - rank(b)` keeps the same elements, puts keys in ascending order, and keeps equal keys in their original order |
| Devices.GroupOrderIsStableSort | src/pages/Home/sections/DeviceListSection/DeviceListSection.tsx:482-492 | the groups are shown as a stable sort by that key: same names, ranks ascending, equal ranks in original order |
| Devices.DeviceIndex | src/pages/Home/sections/DeviceListSection/DeviceListSection.tsx:174-175 | `deviceMap` has exactly the device ids as keys, each mapped to a device with that id |
| Devices.DeviceChildrenComplete | src/pages/Home/sections/DeviceListSection/DeviceListSection.tsx:243-246 | every recorded child is shown under its parent, in the recorded order |
| Devices.ParentDevice | src/pages/Home/sections/DeviceListSection/DeviceListSection.tsx:248-251 | a parent device exists iff the parent id is recorded, non-empty and a known device |
| Devices.Padding | src/pages/Home/sections/DeviceListSection/DeviceListSection.tsx:283-294 | the padding is 12, 60 or `level*20+12`, never less than 12 |
| Devices.TopLevelPadding | src/pages/Home/sections/DeviceListSection/DeviceListSection.tsx:257-294 | root and standalone rows at level 0 are drawn at 12 pixels |
| Devices.ChildPadding | src/pages/Home/sections/DeviceListSection/DeviceListSection.tsx:263-294 | a child is at 60 pixels if it is a camera under a sensorbase, otherwise at `level*20+12` |
| Devices.ProfileOptions | src/pages/Home/sections/DeviceListSection/DeviceListSection.tsx:443-444 | the profile menu lists, in order, exactly the profiles not named "default" in any case |
| Gateways.FindAttr | src/pages/Home/sections/GatewayListSection/GatewayListSection.tsx:55-57 | the value is that of the first entry with the key, and only an entry with the key can supply a defined value; no such entry gives `undefined` |
| Gateways.UploadInterval | src/pages/Home/sections/GatewayListSection/GatewayListSection.tsx:46-70 | "-" exactly when the value is falsy; otherwise the floored minutes followed by " mins": for a number, for `true` (0), and for a non-empty string through its number conversion, with "NaN mins" when that conversion fails |
| Gateways.TransformGatewayData | src/pages/Home/sections/GatewayListSection/GatewayListSection.tsx:37-80 | status and colour follow the connection flag if given, else `active`; measurement is the attribute unless nullish, else the status; the columns always agree |
| Gateways.StatusAgreesWithColour | src/pages/Home/sections/GatewayListSection/GatewayListSection.tsx:74-75 | "Online" goes with the green colour and only with it |
| Gateways.MeasurementDefaultsToStatus | src/pages/Home/sections/GatewayListSection/GatewayListSection.tsx:42-43 | without a measurement attribute, "Started" exactly when "Online" |
| Gateways.ExplicitFalseStops | src/pages/Home/sections/GatewayListSection/GatewayListSection.tsx:43 | an explicit `false` is not nullish and shows "Stopped" |
| Gateways.IntervalInMinutes | src/pages/Home/sections/GatewayListSection/GatewayListSection.tsx:63-66 | 0 seconds shows "-"; positive seconds show the whole minutes they contain |
| Gateways.Rows | src/pages/Home/sections/GatewayListSection/GatewayListSection.tsx:344-346 | one row per device, each from that device's attributes or none |
| Gateways.ConnectionFlagDecidesStatus | src/pages/Home/sections/GatewayListSection/GatewayListSection.tsx:39 | with the connection flag given, every row's status is that flag, whatever the device's `active` |
| Gateways.SortIsOrderedPermutation | src/pages/Home/sections/GatewayListSection/GatewayListSection.tsx:201-208 | the sort is a permutation ordered by the comparator; every active device precedes every inactive one |
| Gateways.Press | src/pages/Home/sections/GatewayListSection/GatewayListSection.tsx:262-265 | First gives 0, Last `totalPages-1`, Prev never below 0, Next never above `totalPages-1` |
| Gateways.NoPagesGivesMinusOne | src/pages/Home/sections/GatewayListSection/GatewayListSection.tsx:263-265 | with no pages, Next and Last give -1 |
| Gateways.EnabledClickKeepsRange | src/pages/Home/sections/GatewayListSection/GatewayListSection.tsx:449-490 | a click on an enabled button keeps the page within the pages |
| Gateways.ClicksKeepRange | src/pages/Home/sections/GatewayListSection/GatewayListSection.tsx:449-490 | any run of clicks keeps the page within the pages |
| Gateways.RangeLabel | src/pages/Home/sections/GatewayListSection/GatewayListSection.tsx:441 | "0 of 0" with no elements, otherwise `start-end of total` |
| Gateways.RangeCountsRowsShown | src/pages/Home/sections/GatewayListSection/GatewayListSection.tsx:441 | on a non-empty page, `1 <= start <= end <= total`, and the label spans `min(size, total - page*size)` rows |
| Gateways.StaleRangeInverted | src/pages/Home/sections/GatewayListSection/GatewayListSection.tsx:441 | a page beyond the data gives a start after the end |
| Gateways.MergeStatus | src/pages/Home/sections/GatewayListSection/GatewayListSection.tsx:250-254 | pushed entries override per device; other entries are kept; an empty or missing payload changes nothing |
| Gateways.MergeIdempotent | src/pages/Home/sections/GatewayListSection/GatewayListSection.tsx:250-254 | merging the same payload twice is merging it once |

## Left out

- Socket I/O and timers are not modelled: `new WebSocket`, the heartbeat, `setTimeout`, `setInterval` and the Promise returned by `connect`. Only their effect on the client record is modelled; a scheduled reconnect is a value, not a timer.
- The constructor's merge of a caller's configuration is not modelled. A client takes a whole `Config`, and `DefaultConfig` holds the defaults.
- The `onerror` handler and `notifyConnectionChange` listeners are not modelled. They only log and call out.
- The message dispatch treats a field as present or absent. JSON scalars that are falsy (`0`, `""`, `false`) in `data` or `latestValues` are treated as present.
- React state, hooks and effects are not modelled: the debounce, the fetch effects, the loading and error flags and expansion toggles. The operations take their inputs as arguments.
- The fetched data itself is an input. `fetchDeviceInfos`, `fetchGatewayDevices`, the relation fetch and the measurement-status hook are not part of this model.
- JavaScript object keys that collide with `Object.prototype` members (such as "constructor") are not modelled. This applies to the display-name table and the `grouped` record. The model treats those objects as plain maps.
- The integer-like keys that `Object.entries` lists before the other keys are not modelled. The group list order is the insertion order the loop gives.
- The `exp` claim is modelled only as absent or an integer. A fractional or non-numeric `exp` is not modelled.
- Attribute values are integers, strings, booleans, `null` or `undefined`. Fractional seconds and `NaN` arithmetic on numbers are not modelled.
- The device icon choice and the collapsed-view badge ("9+") are not modelled. They are pure rendering.
- Gateways.SortIsOrderedPermutation does not state stability among devices whose names `compare` finds equal. It needs `compare` to be a total preorder, which `localeCompare` is taken to be.
- Devices.DeviceIndex does not state which device wins when two devices share an id. `ProfileNamesLastWins` states this for the profile map only.
- Devices.Padding takes the nesting level as an argument. The recursive rendering that increases it is not modelled.
- Cookies.Forget: the cookie jar is keyed by name only; path and domain are not modelled. Every cookie is taken to have path `/` and no domain, as `setCookie` is called with `path: '/'` and no domain by the login form. A browser would keep a same-named cookie with another path or a domain, so Auth.ClearedJar, Auth.NotAuthenticatedAfterClear, Auth.LoggedOutAfterAuthError and Cookies.GetCookieAfterForget hold only for jars of such cookies.

## Findings

| source | as written | input that shows it | evidently intended | confidence | as-written member | corrected member |
|---|---|---|---|---|---|---|
| src/services/websocketService.ts:234 | the unsubscribe command for telemetry takes the keys from split piece 3 on | subscribe `("d1", ["temperature", "humidity"])`, then unsubscribe: sends "humidity" where "temperature,humidity" was subscribed | the keys from piece 2 on, the same list subscribe sent | not executed | Subscriptions.AsWrittenTelemetryDropsFirstKey | Subscriptions.IntendedTelemetryRoundTrip |
| src/services/websocketService.ts:242-243 | the attribute unsubscribe reads the entity type and id as split pieces 1 and 2 | subscribe to attributes of type ENTITY_VIEW with id "e1": the key `attributes_ENTITY_VIEW_e1` is unsubscribed as type "ENTITY", id "VIEW" | the type ENTITY_VIEW and id "e1" of the subscription | not executed | Subscriptions.AsWrittenEntityViewMisparsed | Subscriptions.IntendedAttributesRoundTrip |

The client's run of events (`Subscriptions.Apply`, `Subscriptions.Run`) takes the reading of `unsubscribe` as a parameter. `Subscriptions.RunInvariants` and `Subscriptions.FreshClientRun` hold for every reading, so for both the client as written (`AsWrittenTarget`) and the corrected one (`IntendedTarget`).

=== FILE: auth.dfy ===
/** The authentication predicates of `src/utils/authUtils.ts`, over an
    abstract browser store: the cookie jar and `localStorage`.

    `decode(segment)` stands for `JSON.parse(atob(segment))` followed by
    reading the `exp` claim of section 4.1.4 of RFC 7519; times are
    milliseconds since the epoch, as `Date.now()` returns them. */
module Auth {
  import opened Optional
  import Text
  import Seqs
  import Cookies

  const AccessTokenName := "accessToken"
  const RefreshTokenName := "refreshToken"

  /** What decoding the payload segment of a token gives. */
  datatype Claims =
    | Unreadable       // `atob` or `JSON.parse` threw, or the payload is `null`
    | NoExpiry         // a payload without a numeric `exp`: `undefined < t` is false
    | Expiry(exp: int) // `exp`, in whole seconds since the epoch

  /** `token.split('.')[1]`. When the token has no `.`, the source passes
      `undefined` to `atob`, which reads it as the nine-letter string
      "undefined" and throws; `None` stands for that case. */
  function PayloadSegment(token: string): Option<string> {
    var parts := Text.Split(token, '.');
    if |parts| >= 2 then Some(parts[1]) else None
  }

  /** `isTokenExpired(token)` at time `nowMs`. The comparison
      `exp < Date.now() / 1000` is `exp * 1000 < nowMs` in integers. */
  function IsTokenExpired(token: string, nowMs: int, decode: string -> Claims): (expired: bool)
    ensures token == "" ==> expired
    ensures PayloadSegment(token) == None ==> expired
    ensures PayloadSegment(token).Some? && decode(PayloadSegment(token).value) == Unreadable ==> expired
    ensures token != "" && PayloadSegment(token).Some? && decode(PayloadSegment(token).value) == NoExpiry ==> !expired
    ensures token != "" && PayloadSegment(token).Some? && decode(PayloadSegment(token).value).Expiry? ==>
              (expired <==> decode(PayloadSegment(token).value).exp < nowMs / 1000
                            || (decode(PayloadSegment(token).value).exp == nowMs / 1000 && nowMs % 1000 != 0))
  {
    if token == "" then true
    else
      match PayloadSegment(token)
      case None => true
      case Some(segment) =>
        match decode(segment)
        case Unreadable => true
        case NoExpiry => false
        case Expiry(exp) => exp * 1000 < nowMs
  }

  /** Once a token is expired it stays expired. */
  lemma ExpiryIsPermanent(token: string, t0: int, t1: int, decode: string -> Claims)
    requires t0 <= t1 && IsTokenExpired(token, t0, decode)
    ensures IsTokenExpired(token, t1, decode)
  {
  }

  /** The comparison is strict: at the very millisecond of `exp` a token is
      still accepted, although section 4.1.4 of RFC 7519 asks that it be
      rejected on or after that instant. One millisecond later it is
      rejected. */
  lemma AcceptedAtExpiryInstant(token: string, decode: string -> Claims)
    requires token != "" && PayloadSegment(token).Some?
    requires decode(PayloadSegment(token).value).Expiry?
    ensures !IsTokenExpired(token, decode(PayloadSegment(token).value).exp * 1000, decode)
    ensures IsTokenExpired(token, decode(PayloadSegment(token).value).exp * 1000 + 1, decode)
  {
  }

  /** The browser storage the helpers read and clear. */
  datatype Store = Store(jar: seq<Cookies.Entry>, local: map<string, string>)

  /** `getStoredToken()`. */
  function StoredToken(store: Store, enc: string -> string, dec: string -> Option<string>): Outcome<Option<string>> {
    Cookies.GetCookie(Cookies.DocumentCookie(store.jar), AccessTokenName, enc, dec)
  }

  /** `isAuthenticated()`: an access token is stored and it is not expired;
      the error of decoding the stored token passes through. */
  function IsAuthenticated(store: Store, nowMs: int, enc: string -> string, dec: string -> Option<string>,
                           decode: string -> Claims): Outcome<bool>
  {
    match StoredToken(store, enc, dec)
    case Threw => Threw
    case Returned(None) => Returned(false)
    case Returned(Some(token)) => Returned(!IsTokenExpired(token, nowMs, decode))
  }

  /** In terms of the jar: authenticated exactly when the first entry named
      `accessToken` decodes to a token that is not expired, and the check
      throws exactly when that entry's value does not decode. */
  lemma AuthenticatedIff(store: Store, nowMs: int, enc: string -> string, dec: string -> Option<string>,
                         decode: string -> Claims)
    requires Cookies.Encoded(store.jar) && Cookies.Plain(enc(AccessTokenName))
    ensures IsAuthenticated(store, nowMs, enc, dec, decode) == Returned(true)
            <==> (&& Cookies.Lookup(store.jar, enc(AccessTokenName)).Some?
                  && dec(Cookies.Lookup(store.jar, enc(AccessTokenName)).value).Some?
                  && !IsTokenExpired(dec(Cookies.Lookup(store.jar, enc(AccessTokenName)).value).value, nowMs, decode))
    ensures IsAuthenticated(store, nowMs, enc, dec, decode) == Threw
            <==> (&& Cookies.Lookup(store.jar, enc(AccessTokenName)).Some?
                  && dec(Cookies.Lookup(store.jar, enc(AccessTokenName)).value).None?)
  {
    Cookies.GetCookieFromJar(store.jar, AccessTokenName, enc, dec);
  }

  const TokenCookieOptions := Cookies.CookieOptions(None, Some("/"), None, None, None)

  /** What `clearAuthData()` leaves behind, and the two cookie strings it
      writes to `document.cookie`. */
  datatype Cleared = Cleared(store: Store, written: seq<string>)

  /** `clearAuthData()`: expire both token cookies (path `/`) and remove
      both `localStorage` keys. */
  function ClearAuthData(store: Store, enc: string -> string, utc: int -> string): (r: Cleared)
    ensures r.store.local == Cookies.ClearLocalStorageAuthData(store.local)
    ensures |r.written| == 2
    ensures r.written[0] == enc(AccessTokenName) + "=" + enc("") + "; expires=" + utc(0) + "; path=/"
    ensures r.written[1] == enc(RefreshTokenName) + "=" + enc("") + "; expires=" + utc(0) + "; path=/"
  {
    PathOnlyRendering(utc);
    var jar := Cookies.Forget(Cookies.Forget(store.jar, enc(AccessTokenName)), enc(RefreshTokenName));
    Cleared(Store(jar, Cookies.ClearLocalStorageAuthData(store.local)),
            [Cookies.RemoveCookie(AccessTokenName, TokenCookieOptions, enc, utc),
             Cookies.RemoveCookie(RefreshTokenName, TokenCookieOptions, enc, utc)])
  }

  /** Only the `path` attribute remains once the expiry is set aside. */
  lemma PathOnlyRendering(utc: int -> string)
    ensures Cookies.RenderAll(Cookies.Attributes(TokenCookieOptions.(expires := None), utc)) == "; path=/"
  {
    var o := TokenCookieOptions.(expires := None);
    assert Cookies.ExpiresPart(o, utc) == [];
    assert Cookies.PathPart(o) == [Cookies.Path("/")];
    assert Cookies.DomainPart(o) == [] && Cookies.SecurePart(o) == [] && Cookies.SameSitePart(o) == [];
    assert Cookies.Attributes(o, utc) == [Cookies.Path("/")];
    assert [Cookies.Path("/")][1..] == [];
  }

  /** The jar after `clearAuthData()`: no entry of either token name is
      left, and every other entry is kept, in order. */
  lemma ClearedJar(store: Store, enc: string -> string, utc: int -> string)
    ensures var jar := ClearAuthData(store, enc, utc).store.jar;
            && Seqs.IsSubsequence(jar, store.jar)
            && (forall i :: 0 <= i < |jar| ==>
                  jar[i].name != enc(AccessTokenName) && jar[i].name != enc(RefreshTokenName))
            && (forall i :: (0 <= i < |store.jar| && store.jar[i].name != enc(AccessTokenName)
                             && store.jar[i].name != enc(RefreshTokenName)) ==> store.jar[i] in jar)
  {
    var p := (e: Cookies.Entry) => e.name != enc(AccessTokenName);
    var q := (e: Cookies.Entry) => e.name != enc(RefreshTokenName);
    Seqs.KeepKeep(store.jar, p, q, (e: Cookies.Entry) => p(e) && q(e));
  }

  /** After `clearAuthData()` the user is no longer authenticated. */
  lemma NotAuthenticatedAfterClear(store: Store, nowMs: int, enc: string -> string, dec: string -> Option<string>,
                                   utc: int -> string, decode: string -> Claims)
    requires Cookies.Encoded(store.jar) && Cookies.Plain(enc(AccessTokenName))
    ensures IsAuthenticated(ClearAuthData(store, enc, utc).store, nowMs, enc, dec, decode) == Returned(false)
  {
    var jar := ClearAuthData(store, enc, utc).store.jar;
    var afterAccess := Cookies.Forget(store.jar, enc(AccessTokenName));
    Cookies.ForgetKeepsEncoded(store.jar, enc(AccessTokenName));
    Cookies.ForgetKeepsEncoded(afterAccess, enc(RefreshTokenName));
    Cookies.GetCookieAbsent(jar, AccessTokenName, enc, dec);
  }

  /** The error the caller hands to `handleAuthError`; `None` is a
      `null` or `undefined` error. */
  datatype ErrorInfo = ErrorInfo(status: Option<int>, message: Option<string>)

  /** The classification of `handleAuthError`: status 401, or a message that
      mentions "401", "Unauthorized" or "Token expired". */
  predicate IsAuthError(err: Option<ErrorInfo>) {
    && err.Some?
    && (|| err.value.status == Some(401)
        || (&& err.value.message.Some?
            && (|| Text.Contains(err.value.message.value, "401")
                || Text.Contains(err.value.message.value, "Unauthorized")
                || Text.Contains(err.value.message.value, "Token expired"))))
  }

  /** `handleAuthError(error)`: the verdict and the store afterwards. */
  datatype Handled = Handled(isAuthError: bool, store: Store)

  function HandleAuthError(err: Option<ErrorInfo>, store: Store, enc: string -> string, utc: int -> string): (r: Handled)
    ensures r.isAuthError <==> IsAuthError(err)
    ensures r.isAuthError ==> r.store == ClearAuthData(store, enc, utc).store
    ensures !r.isAuthError ==> r.store == store
  {
    if IsAuthError(err) then Handled(true, ClearAuthData(store, enc, utc).store)
    else Handled(false, store)
  }

  /** A message containing one of the markers anywhere is classified as an
      authentication error, whatever else it says. */
  lemma MarkerAnywhereIsAuthError(before: string, after: string)
    ensures IsAuthError(Some(ErrorInfo(None, Some(before + "Token expired" + after))))
  {
    var m := before + "Token expired" + after;
    assert m[|before|..|before| + |"Token expired"|] == "Token expired";
    assert Text.OccursAt(m, "Token expired", |before|);
  }

  /** After an error classified as an authentication error the user is
      logged out. */
  lemma LoggedOutAfterAuthError(err: Option<ErrorInfo>, store: Store, nowMs: int, enc: string -> string,
                                dec: string -> Option<string>, utc: int -> string, decode: string -> Claims)
    requires IsAuthError(err)
    requires Cookies.Encoded(store.jar) && Cookies.Plain(enc(AccessTokenName))
    ensures IsAuthenticated(HandleAuthError(err, store, enc, utc).store, nowMs, enc, dec, decode) == Returned(false)
  {
    NotAuthenticatedAfterClear(store, nowMs, enc, dec, utc, decode);
  }
}

=== FILE: cookies.dfy ===
/** The cookie helpers of `src/utils/cookieUtils.ts`: the attribute string
    `setCookie` writes, the lookup `getCookie` performs on the
    `document.cookie` jar string, and the helpers built on them.

    The browser primitives are parameters: `enc` is `encodeURIComponent`,
    `dec` is `decodeURIComponent`, which gives `None` where it throws a
    URIError (a malformed `%` escape), and `utc(ms)` is
    `new Date(ms).toUTCString()`. Dates are milliseconds since the epoch. */
module Cookies {
  import opened Optional
  import Text
  import Seqs

  datatype SameSite = SameSiteStrict | SameSiteLax | SameSiteNone

  function SameSiteName(s: SameSite): string {
    match s
    case SameSiteStrict => "Strict"
    case SameSiteLax => "Lax"
    case SameSiteNone => "None"
  }

  /** The optional settings a caller passes to `setCookie`. */
  datatype CookieOptions = CookieOptions(
    expires: Option<int>,
    path: Option<string>,
    domain: Option<string>,
    secure: Option<bool>,
    sameSite: Option<SameSite>)

  const NoOptions := CookieOptions(None, None, None, None, None)

  /** One `; key=value` attribute of a cookie string. */
  datatype Attribute =
    | Expires(date: string)
    | Path(path: string)
    | Domain(domain: string)
    | Secure
    | SameSitePolicy(policy: SameSite)

  /** Position of each kind of attribute in the fixed order of `setCookie`. */
  function Rank(a: Attribute): nat {
    match a
    case Expires(_) => 0
    case Path(_) => 1
    case Domain(_) => 2
    case Secure => 3
    case SameSitePolicy(_) => 4
  }

  function Render(a: Attribute): string {
    match a
    case Expires(d) => "; expires=" + d
    case Path(p) => "; path=" + p
    case Domain(d) => "; domain=" + d
    case Secure => "; secure"
    case SameSitePolicy(s) => "; samesite=" + SameSiteName(s)
  }

  function RenderAll(attrs: seq<Attribute>): string {
    if |attrs| == 0 then "" else Render(attrs[0]) + RenderAll(attrs[1..])
  }

  /** Zero or one attribute, all of one rank. */
  predicate OfRank(part: seq<Attribute>, k: nat) {
    |part| <= 1 && forall a :: a in part ==> Rank(a) == k
  }

  function ExpiresPart(o: CookieOptions, utc: int -> string): (part: seq<Attribute>)
    ensures OfRank(part, 0)
    ensures forall d :: Expires(d) in part <==> o.expires.Some? && d == utc(o.expires.value)
  {
    if o.expires.Some? then [Expires(utc(o.expires.value))] else []
  }

  function PathPart(o: CookieOptions): (part: seq<Attribute>)
    ensures OfRank(part, 1)
    ensures forall p :: Path(p) in part <==> o.path == Some(p) && p != ""
  {
    if o.path.Some? && o.path.value != "" then [Path(o.path.value)] else []
  }

  function DomainPart(o: CookieOptions): (part: seq<Attribute>)
    ensures OfRank(part, 2)
    ensures forall d :: Domain(d) in part <==> o.domain == Some(d) && d != ""
  {
    if o.domain.Some? && o.domain.value != "" then [Domain(o.domain.value)] else []
  }

  function SecurePart(o: CookieOptions): (part: seq<Attribute>)
    ensures OfRank(part, 3)
    ensures Secure in part <==> o.secure == Some(true)
  {
    if o.secure == Some(true) then [Secure] else []
  }

  function SameSitePart(o: CookieOptions): (part: seq<Attribute>)
    ensures OfRank(part, 4)
    ensures forall s :: SameSitePolicy(s) in part <==> o.sameSite == Some(s)
  {
    if o.sameSite.Some? then [SameSitePolicy(o.sameSite.value)] else []
  }

  /** Ranks strictly increase along the sequence. */
  predicate InFixedOrder(attrs: seq<Attribute>) {
    forall i, j :: 0 <= i < j < |attrs| ==> Rank(attrs[i]) < Rank(attrs[j])
  }

  lemma AppendInOrder(attrs: seq<Attribute>, part: seq<Attribute>, k: nat)
    requires InFixedOrder(attrs) && OfRank(part, k)
    requires forall a :: a in attrs ==> Rank(a) < k
    ensures InFixedOrder(attrs + part)
    ensures forall a :: a in attrs + part ==> Rank(a) <= k
  {
    forall i, j | 0 <= i < j < |attrs + part|
      ensures Rank((attrs + part)[i]) < Rank((attrs + part)[j])
    {
      if j >= |attrs| {
        assert (attrs + part)[j] == part[j - |attrs|];
        assert (attrs + part)[i] in attrs;
      }
    }
  }

  /** The attributes `setCookie` appends: each one only when its option is
      set (a JavaScript-truthy value: an empty path or domain and a
      `secure: false` add nothing), in the fixed order expires, path,
      domain, secure, samesite. */
  function Attributes(o: CookieOptions, utc: int -> string): (attrs: seq<Attribute>)
    ensures InFixedOrder(attrs)
  {
    var a0 := ExpiresPart(o, utc);
    var a1 := PathPart(o);
    var a2 := DomainPart(o);
    var a3 := SecurePart(o);
    var a4 := SameSitePart(o);
    AppendInOrder(a0, a1, 1);
    AppendInOrder(a0 + a1, a2, 2);
    AppendInOrder(a0 + a1 + a2, a3, 3);
    AppendInOrder(a0 + a1 + a2 + a3, a4, 4);
    a0 + a1 + a2 + a3 + a4
  }

  /** The string `setCookie(name, value, o)` assigns to `document.cookie`:
      the encoded pair followed by the rendered attributes. */
  function SetCookie(name: string, value: string, o: CookieOptions,
                     enc: string -> string, utc: int -> string): (r: string)
    ensures Text.StartsWith(r, enc(name) + "=" + enc(value))
    ensures r[|enc(name) + "=" + enc(value)|..] == RenderAll(Attributes(o, utc))
  {
    var head := enc(name) + "=" + enc(value);
    var r := head + RenderAll(Attributes(o, utc));
    assert r[..|head|] == head;
    r
  }

  /** Each attribute is present exactly when its option is set. */
  lemma AttributesOnlyWhenSet(o: CookieOptions, utc: int -> string)
    ensures forall d :: Expires(d) in Attributes(o, utc) <==> o.expires.Some? && d == utc(o.expires.value)
    ensures forall p :: Path(p) in Attributes(o, utc) <==> o.path == Some(p) && p != ""
    ensures forall d :: Domain(d) in Attributes(o, utc) <==> o.domain == Some(d) && d != ""
    ensures Secure in Attributes(o, utc) <==> o.secure == Some(true)
    ensures forall s :: SameSitePolicy(s) in Attributes(o, utc) <==> o.sameSite == Some(s)
  {
    var attrs := ExpiresPart(o, utc) + PathPart(o) + DomainPart(o) + SecurePart(o) + SameSitePart(o);
    assert Attributes(o, utc) == attrs;
  }

  /** Setting an expiry puts exactly one attribute in front of the others. */
  lemma AttributesWithExpiry(o: CookieOptions, date: int, utc: int -> string)
    ensures Attributes(o.(expires := Some(date)), utc)
            == [Expires(utc(date))] + Attributes(o.(expires := None), utc)
  {
    var p, d, s, ss := PathPart(o), DomainPart(o), SecurePart(o), SameSitePart(o);
    var e := Expires(utc(date));
    calc {
      Attributes(o.(expires := Some(date)), utc);
      [e] + p + d + s + ss;
      [e] + ([] + p + d + s + ss);
      [e] + Attributes(o.(expires := None), utc);
    }
  }

  lemma RenderAllCons(a: Attribute, rest: seq<Attribute>)
    ensures RenderAll([a] + rest) == Render(a) + RenderAll(rest)
  {
    assert ([a] + rest)[1..] == rest;
  }

  /** `removeCookie(name, o)`: an empty value with an expiry at the epoch,
      followed by whatever else the caller asked for. */
  function RemoveCookie(name: string, o: CookieOptions,
                        enc: string -> string, utc: int -> string): (r: string)
    ensures r == enc(name) + "=" + enc("") + "; expires=" + utc(0)
                 + RenderAll(Attributes(o.(expires := None), utc))
  {
    var expired := o.(expires := Some(0));
    var rest := RenderAll(Attributes(o.(expires := None), utc));
    AttributesWithExpiry(o, 0, utc);
    RenderAllCons(Expires(utc(0)), Attributes(o.(expires := None), utc));
    SetCookieParts(name, "", expired, enc, utc);
    assert RenderAll(Attributes(expired, utc)) == "; expires=" + utc(0) + rest;
    SetCookie(name, "", expired, enc, utc)
  }

  /** The cookie string is the encoded pair followed by the attributes. */
  lemma SetCookieParts(name: string, value: string, o: CookieOptions,
                       enc: string -> string, utc: int -> string)
    ensures SetCookie(name, value, o, enc, utc) == enc(name) + "=" + enc(value) + RenderAll(Attributes(o, utc))
  {
    var head := enc(name) + "=" + enc(value);
    var r := SetCookie(name, value, o, enc, utc);
    assert r == r[..|head|] + r[|head|..];
  }

  /** A piece of the jar string, once trimmed, starts with `key`. */
  predicate MatchesAt(pieces: seq<string>, key: string, i: int) {
    0 <= i < |pieces| && Text.StartsWith(Text.Trim(pieces[i]), key)
  }

  /** Piece `i` is the first one that matches. */
  predicate FirstMatch(pieces: seq<string>, key: string, i: int) {
    MatchesAt(pieces, key, i) && forall j :: 0 <= j < i ==> !MatchesAt(pieces, key, j)
  }

  /** The `for` loop of `getCookie`: the remainder of the first trimmed
      piece that starts with `key`, if any piece does. */
  function FindValue(pieces: seq<string>, key: string): (r: Option<string>)
    ensures r == None <==> forall i :: !MatchesAt(pieces, key, i)
    ensures r.Some? ==> exists i :: FirstMatch(pieces, key, i) && r.value == Text.Trim(pieces[i])[|key|..]
  {
    if |pieces| == 0 then None
    else if Text.StartsWith(Text.Trim(pieces[0]), key) then
      assert FirstMatch(pieces, key, 0);
      Some(Text.Trim(pieces[0])[|key|..])
    else
      var r := FindValue(pieces[1..], key);
      FindValueSkipsHead(pieces, key, r);
      r
  }

  /** When the first piece does not match, what the rest of the pieces
      give is what all of them give. */
  lemma FindValueSkipsHead(pieces: seq<string>, key: string, r: Option<string>)
    requires |pieces| > 0 && !MatchesAt(pieces, key, 0)
    requires r == None <==> forall i :: !MatchesAt(pieces[1..], key, i)
    requires r.Some? ==> exists i :: FirstMatch(pieces[1..], key, i) && r.value == Text.Trim(pieces[1..][i])[|key|..]
    ensures r == None <==> forall i :: !MatchesAt(pieces, key, i)
    ensures r.Some? ==> exists i :: FirstMatch(pieces, key, i) && r.value == Text.Trim(pieces[i])[|key|..]
  {
    MatchesShift(pieces, key);
    if r.Some? {
      var i :| FirstMatch(pieces[1..], key, i) && r.value == Text.Trim(pieces[1..][i])[|key|..];
      assert FirstMatch(pieces, key, i + 1);
    }
  }

  /** Dropping the first piece shifts every later match down by one. */
  lemma MatchesShift(pieces: seq<string>, key: string)
    requires |pieces| > 0
    ensures forall i :: 0 < i < |pieces| ==> (MatchesAt(pieces, key, i) <==> MatchesAt(pieces[1..], key, i - 1))
  {
    forall i | 0 < i < |pieces|
      ensures MatchesAt(pieces, key, i) <==> MatchesAt(pieces[1..], key, i - 1)
    {
      assert pieces[1..][i - 1] == pieces[i];
    }
  }

  /** The `;`-separated pieces of the jar string. */
  function Pieces(doc: string): seq<string> {
    Text.Split(doc, ';')
  }

  /** The prefix `getCookie` looks for: the encoded name and `=`. */
  function Key(name: string, enc: string -> string): string {
    enc(name) + "="
  }

  /** `decodeURIComponent(s)` returned from `getCookie`: the decoded
      text, or the URIError it throws. */
  function DecodeValue(s: string, dec: string -> Option<string>): Outcome<Option<string>> {
    match dec(s)
    case Some(v) => Returned(Some(v))
    case None => Threw
  }

  /** `getCookie(name)` on the jar string `doc`: the decoded value of the
      first `;`-separated entry that, trimmed, starts with the encoded
      name followed by `=`, or the error decoding it throws; `None` (the
      source's `null`) if there is no such entry. */
  function GetCookie(doc: string, name: string,
                     enc: string -> string, dec: string -> Option<string>): (r: Outcome<Option<string>>)
    ensures r == Returned(None) <==> forall i :: !MatchesAt(Pieces(doc), Key(name, enc), i)
    ensures r != Returned(None) ==> exists i :: (FirstMatch(Pieces(doc), Key(name, enc), i)
                                     && r == DecodeValue(Text.Trim(Pieces(doc)[i])[|Key(name, enc)|..], dec))
  {
    var found := FindValue(Pieces(doc), Key(name, enc));
    if found.None? then Returned(None) else DecodeValue(found.value, dec)
  }

  /** `hasCookie(name)`: some entry of the jar carries the name. The
      error of `getCookie` passes through. */
  function HasCookie(doc: string, name: string, enc: string -> string, dec: string -> Option<string>): (r: Outcome<bool>)
    ensures r.Returned? ==> (r.value <==> exists i :: MatchesAt(Pieces(doc), Key(name, enc), i))
    ensures r == Threw <==> exists i :: (FirstMatch(Pieces(doc), Key(name, enc), i)
                                         && dec(Text.Trim(Pieces(doc)[i])[|Key(name, enc)|..]).None?)
  {
    match GetCookie(doc, name, enc, dec)
    case Threw => Threw
    case Returned(v) => Returned(v.Some?)
  }

  // The jar as the browser presents it

  /** A cookie as the browser keeps it: name and value as written, that is,
      already encoded. Path and domain are not kept: every cookie is taken
      to have path `/` and no domain attribute, as the application writes
      its cookies. */
  datatype Entry = Entry(name: string, value: string)

  function EntryText(e: Entry): string {
    e.name + "=" + e.value
  }

  /** No `;`, no `=` and no white space, as in any `encodeURIComponent`
      output. Nothing is said about the `%` escapes being well formed. */
  predicate Plain(s: string) {
    forall k :: 0 <= k < |s| ==> s[k] != ';' && s[k] != '=' && !Text.IsSpace(s[k])
  }

  /** Every entry was written through `setCookie`, so its name and value
      are encoded. */
  predicate Encoded(jar: seq<Entry>) {
    forall i :: 0 <= i < |jar| ==> Plain(jar[i].name) && Plain(jar[i].value)
  }

  /** `document.cookie`: the entries in jar order, separated by `"; "`. */
  function DocumentCookie(jar: seq<Entry>): string {
    if |jar| == 0 then ""
    else if |jar| == 1 then EntryText(jar[0])
    else EntryText(jar[0]) + "; " + DocumentCookie(jar[1..])
  }

  /** The value of the first entry with the given stored name. */
  function Lookup(jar: seq<Entry>, storedName: string): Option<string> {
    if |jar| == 0 then None
    else if jar[0].name == storedName then Some(jar[0].value)
    else Lookup(jar[1..], storedName)
  }

  /** The browser forgetting every entry of a name (the effect of writing
      a cookie string whose expiry is in the past, with path `/` and no
      domain, over a jar whose cookies all have that path and no domain). */
  function Forget(jar: seq<Entry>, storedName: string): seq<Entry> {
    Seqs.Keep(jar, (e: Entry) => e.name != storedName)
  }

  /** Because the key includes `=`, an entry matches exactly when its name
      is the queried one: a stored name that merely extends the queried
      name (or is extended by it) never matches. */
  lemma EntryMatchesIff(e: Entry, storedName: string)
    requires Plain(e.name) && Plain(storedName)
    ensures Text.StartsWith(EntryText(e), storedName + "=") <==> e.name == storedName
  {
    var t := EntryText(e);
    var key := storedName + "=";
    var n := |storedName|;
    if e.name == storedName {
      assert t[..|key|] == key;
    } else if |e.name| < n {
      assert t[|e.name|] == '=' != key[|e.name|];
    } else if |e.name| > n {
      assert t[n] == e.name[n] != '=';
      assert key[n] == '=';
    } else {
      var k :| 0 <= k < n && e.name[k] != storedName[k];
      assert t[k] == e.name[k] && key[k] == storedName[k];
    }
  }

  /** A stored entry reads back as itself after trimming. */
  lemma EntryTextTrimmed(e: Entry)
    requires Plain(e.name) && Plain(e.value)
    ensures Text.Trim(EntryText(e)) == EntryText(e)
    ensures ';' !in EntryText(e)
  {
    EntryTextNoEdgeSpace(e);
    Text.TrimFixedIff(EntryText(e));
    EntryTextNoSemicolon(e);
  }

  /** Neither end of a stored entry is white space. */
  lemma EntryTextNoEdgeSpace(e: Entry)
    requires Plain(e.name) && Plain(e.value)
    ensures !Text.HasEdgeSpace(EntryText(e))
  {
    var t := EntryText(e);
    if |e.name| > 0 {
      assert t[0] == e.name[0];
    } else {
      assert t[0] == '=';
    }
    if |e.value| > 0 {
      assert t[|t| - 1] == e.value[|e.value| - 1];
    } else {
      assert t[|t| - 1] == '=';
    }
  }

  /** A stored entry holds no `;`. */
  lemma EntryTextNoSemicolon(e: Entry)
    requires Plain(e.name) && Plain(e.value)
    ensures ';' !in EntryText(e)
  {
    var t := EntryText(e);
    forall k | 0 <= k < |t|
      ensures t[k] != ';'
    {
      if k < |e.name| {
        assert t[k] == e.name[k];
      } else if k > |e.name| {
        assert t[k] == e.value[k - |e.name| - 1];
      }
    }
  }

  /** The space after each `;` of the jar string does not affect the
      lookup, because pieces are trimmed before matching. */
  lemma FindValueAfterSpace(rest: string, key: string)
    ensures FindValue(Pieces(" " + rest), key) == FindValue(Pieces(rest), key)
  {
    var ps := Text.Split(rest, ';');
    var qs := Text.Split(" " + rest, ';');
    assert (" " + rest)[1..] == rest;
    assert qs == [" " + ps[0]] + ps[1..];
    Text.TrimSkipsLeadingSpace(' ', ps[0]);
    assert qs[1..] == ps[1..];
  }

  /** The jar string splits at the `;` after its first entry. */
  lemma PiecesOfCons(t: string, rest: string)
    requires ';' !in t
    ensures Pieces(t + "; " + rest) == [t] + Pieces(" " + rest)
  {
    assert t + "; " + rest == t + [';'] + (" " + rest);
    Text.SplitPrefix(t, ';', " " + rest);
  }

  lemma FindValueCons(t: string, ps: seq<string>, key: string)
    ensures FindValue([t] + ps, key)
            == if Text.StartsWith(Text.Trim(t), key) then Some(Text.Trim(t)[|key|..]) else FindValue(ps, key)
  {
    assert ([t] + ps)[0] == t;
    assert ([t] + ps)[1..] == ps;
  }

  /** What the lookup sees of one stored entry: it holds no `;`, it matches
      exactly when its name is the queried one, and then its remainder is
      the stored value. */
  lemma HeadEntryDecides(e: Entry, storedName: string)
    requires Plain(e.name) && Plain(e.value) && Plain(storedName)
    ensures ';' !in EntryText(e)
    ensures Text.StartsWith(Text.Trim(EntryText(e)), storedName + "=") <==> e.name == storedName
    ensures e.name == storedName ==> Text.Trim(EntryText(e))[|storedName + "="|..] == e.value
  {
    var t := EntryText(e);
    EntryTextTrimmed(e);
    EntryMatchesIff(e, storedName);
    assert t[|e.name| + 1..] == e.value;
  }

  /** Reading the jar string of an encoded jar finds the first entry of the
      queried name: the lookup of `getCookie` and the serialisation of
      `document.cookie` agree. */
  lemma {:induction false} FindValueInJar(jar: seq<Entry>, storedName: string)
    requires Encoded(jar) && Plain(storedName)
    ensures FindValue(Pieces(DocumentCookie(jar)), storedName + "=") == Lookup(jar, storedName)
    decreases |jar|
  {
    if |jar| == 0 {
      FindValueInEmptyJar(DocumentCookie(jar), storedName + "=");
    } else {
      var e, tail := jar[0], jar[1..];
      assert Plain(e.name) && Plain(e.value);
      assert Lookup(jar, storedName) == if e.name == storedName then Some(e.value) else Lookup(tail, storedName);
      if |jar| == 1 {
        FindValueInSingleJar(e, storedName);
      } else {
        assert DocumentCookie(jar) == EntryText(e) + "; " + DocumentCookie(tail);
        FindValueInJarCons(e, DocumentCookie(tail), storedName);
        EncodedTail(jar);
        FindValueInJar(tail, storedName);
      }
    }
  }

  lemma EncodedTail(jar: seq<Entry>)
    requires Encoded(jar) && |jar| > 0
    ensures Encoded(jar[1..])
  {
    forall i | 0 <= i < |jar| - 1
      ensures Plain(jar[1..][i].name) && Plain(jar[1..][i].value)
    {
      assert jar[1..][i] == jar[i + 1];
    }
  }

  /** An empty jar string matches no non-empty key. */
  lemma FindValueInEmptyJar(doc: string, key: string)
    requires |doc| == 0 && |key| > 0
    ensures FindValue(Pieces(doc), key) == None
  {
    Text.SplitNoSeparator(doc, ';');
    var ps := Pieces(doc);
    assert |Text.Trim(ps[0])| == 0;
    assert !MatchesAt(ps, key, 0);
  }

  /** A jar of one entry. */
  lemma FindValueInSingleJar(e: Entry, storedName: string)
    requires Plain(e.name) && Plain(e.value) && Plain(storedName)
    ensures FindValue(Pieces(EntryText(e)), storedName + "=") == if e.name == storedName then Some(e.value) else None
  {
    var t := EntryText(e);
    HeadEntryDecides(e, storedName);
    Text.SplitNoSeparator(t, ';');
    FindValueCons(t, [], storedName + "=");
    assert [t] + [] == [t];
  }

  /** A stored entry followed by the rest of the jar string. */
  lemma FindValueInJarCons(e: Entry, rest: string, storedName: string)
    requires Plain(e.name) && Plain(e.value) && Plain(storedName)
    ensures FindValue(Pieces(EntryText(e) + "; " + rest), storedName + "=")
            == if e.name == storedName then Some(e.value) else FindValue(Pieces(rest), storedName + "=")
  {
    var t := EntryText(e);
    HeadEntryDecides(e, storedName);
    PiecesOfCons(t, rest);
    FindValueCons(t, Pieces(" " + rest), storedName + "=");
    FindValueAfterSpace(rest, storedName + "=");
  }

  /** `getCookie` on the browser's jar string returns the decoded value of
      the first entry whose name is the encoded queried name. */
  lemma GetCookieFromJar(jar: seq<Entry>, name: string, enc: string -> string, dec: string -> Option<string>)
    requires Encoded(jar) && Plain(enc(name))
    ensures GetCookie(DocumentCookie(jar), name, enc, dec)
            == (match Lookup(jar, enc(name)) case None => Returned(None) case Some(v) => DecodeValue(v, dec))
  {
    FindValueInJar(jar, enc(name));
  }

  /** Forgetting entries keeps the jar encoded. */
  lemma ForgetKeepsEncoded(jar: seq<Entry>, storedName: string)
    requires Encoded(jar)
    ensures Encoded(Forget(jar, storedName))
    ensures forall i :: 0 <= i < |Forget(jar, storedName)| ==> Forget(jar, storedName)[i].name != storedName
  {
    var kept := Forget(jar, storedName);
    forall i | 0 <= i < |kept|
      ensures Plain(kept[i].name) && Plain(kept[i].value)
    {
      var k :| 0 <= k < |jar| && jar[k] == kept[i];
    }
  }

  /** `getCookie` finds nothing for a name no entry carries. */
  lemma GetCookieAbsent(jar: seq<Entry>, name: string, enc: string -> string, dec: string -> Option<string>)
    requires Encoded(jar) && Plain(enc(name))
    requires forall i :: 0 <= i < |jar| ==> jar[i].name != enc(name)
    ensures GetCookie(DocumentCookie(jar), name, enc, dec) == Returned(None)
  {
    LookupMissing(jar, enc(name));
    GetCookieFromJar(jar, name, enc, dec);
  }

  /** After the browser forgets a name, `getCookie` no longer finds it. */
  lemma GetCookieAfterForget(jar: seq<Entry>, name: string, enc: string -> string, dec: string -> Option<string>)
    requires Encoded(jar) && Plain(enc(name))
    ensures GetCookie(DocumentCookie(Forget(jar, enc(name))), name, enc, dec) == Returned(None)
  {
    ForgetKeepsEncoded(jar, enc(name));
    GetCookieAbsent(Forget(jar, enc(name)), name, enc, dec);
  }

  lemma {:induction false} LookupMissing(jar: seq<Entry>, storedName: string)
    requires forall i :: 0 <= i < |jar| ==> jar[i].name != storedName
    ensures Lookup(jar, storedName) == None
    decreases |jar|
  {
    if |jar| > 0 {
      LookupMissing(jar[1..], storedName);
    }
  }

  /** `clearLocalStorageAuthData()`: the two token keys are removed from
      `localStorage`; every other key keeps its value. */
  function ClearLocalStorageAuthData(local: map<string, string>): (r: map<string, string>)
    ensures "accessToken" !in r && "refreshToken" !in r
    ensures forall k :: k in local && k != "accessToken" && k != "refreshToken" ==> k in r && r[k] == local[k]
    ensures forall k :: k in r ==> k in local
  {
    local - {"accessToken", "refreshToken"}
  }
}

=== FILE: devices.dfy ===
/** The device tree of the sidebar in
    `src/pages/Home/sections/DeviceListSection/DeviceListSection.tsx`:
    profile display names, filtering, the parent and children maps built
    from relations, the grouping of top-level devices by display name, the
    fixed order of the groups, the per-profile counts and the indentation
    of a row.

    `lower` stands for `String.prototype.toLowerCase`. */
module Devices {
  import opened Optional
  import Text
  import Seqs
  import Ranking

  /** The fields of a device the sidebar reads: `id.id`, `name` and
      `deviceProfileId.id`. */
  datatype Device = Device(id: string, name: string, profileId: string)

  /** A relation edge `from.id -> to.id`: parent to child. */
  datatype Relation = Relation(from: string, to: string)

  /** A device profile: `id.id` and `name`. */
  datatype Profile = Profile(id: string, name: string)

  datatype DisplayInfo = DisplayInfo(displayName: string, description: string)

  const GatewayCode := "GW-L0W0-00"
  const SensorbaseCode := "SU-G7L0-00"
  const FileUploaderCode := "SU-G1W0-00"
  const CameraCode := "VT-WXCM-000"

  /** `getProfileDisplayInfo(profileName)`: the four known profile codes
      get a readable name; every name keeps itself as the description. */
  function ProfileDisplayInfo(profileName: string): (info: DisplayInfo)
    ensures info.description == profileName
    ensures profileName == GatewayCode ==> info.displayName == "Gateway"
    ensures profileName == SensorbaseCode ==> info.displayName == "Sensorbase"
    ensures profileName == FileUploaderCode ==> info.displayName == "File Uploader Device"
    ensures profileName == CameraCode ==> info.displayName == "Camera"
    ensures profileName !in {GatewayCode, SensorbaseCode, FileUploaderCode, CameraCode} ==>
              info == DisplayInfo(profileName, profileName)
  {
    if profileName == GatewayCode then DisplayInfo("Gateway", profileName)
    else if profileName == SensorbaseCode then DisplayInfo("Sensorbase", profileName)
    else if profileName == FileUploaderCode then DisplayInfo("File Uploader Device", profileName)
    else if profileName == CameraCode then DisplayInfo("Camera", profileName)
    else DisplayInfo(profileName, profileName)
  }

  /** `i` is the last position of a profile with id `id`. */
  predicate LastProfile(profiles: seq<Profile>, id: string, i: int) {
    && 0 <= i < |profiles| && profiles[i].id == id
    && forall j :: i < j < |profiles| ==> profiles[j].id != id
  }

  /** `profileIdToNameMap`: profile id to profile name, filled in list
      order so that the later profile wins when an id repeats. */
  function ProfileNames(profiles: seq<Profile>): (names: map<string, string>)
    ensures forall i :: 0 <= i < |profiles| ==> profiles[i].id in names
    decreases |profiles|
  {
    if |profiles| == 0 then map[]
    else
      var init := profiles[..|profiles| - 1];
      var last := profiles[|profiles| - 1];
      var names := ProfileNames(init)[last.id := last.name];
      assert forall i :: 0 <= i < |profiles| - 1 ==> profiles[i] == init[i];
      names
  }

  /** Every id in the map comes from some profile, and it maps to the name
      of the last profile with that id. */
  lemma ProfileNamesLastWins(profiles: seq<Profile>, id: string)
    ensures id in ProfileNames(profiles) <==> exists i :: 0 <= i < |profiles| && profiles[i].id == id
    ensures forall i :: LastProfile(profiles, id, i) ==> ProfileNames(profiles)[id] == profiles[i].name
  {
    ProfileNamesDomain(profiles, id);
    forall i | LastProfile(profiles, id, i)
      ensures ProfileNames(profiles)[id] == profiles[i].name
    {
      ProfileNamesValue(profiles, id, i);
    }
  }

  lemma {:induction false} ProfileNamesDomain(profiles: seq<Profile>, id: string)
    ensures id in ProfileNames(profiles) ==> exists i :: 0 <= i < |profiles| && profiles[i].id == id
    decreases |profiles|
  {
    if |profiles| > 0 {
      var init := profiles[..|profiles| - 1];
      var last := profiles[|profiles| - 1];
      assert ProfileNames(profiles) == ProfileNames(init)[last.id := last.name];
      ProfileNamesDomain(init, id);
      if id != last.id && id in ProfileNames(profiles) {
        var i :| 0 <= i < |init| && init[i].id == id;
        assert profiles[i].id == id;
      }
    }
  }

  lemma {:induction false} ProfileNamesValue(profiles: seq<Profile>, id: string, i: int)
    requires LastProfile(profiles, id, i)
    ensures id in ProfileNames(profiles) && ProfileNames(profiles)[id] == profiles[i].name
    decreases |profiles|
  {
    var init := profiles[..|profiles| - 1];
    var last := profiles[|profiles| - 1];
    assert ProfileNames(profiles) == ProfileNames(init)[last.id := last.name];
    if i < |profiles| - 1 {
      assert last.id != id;
      assert LastProfile(init, id, i);
      ProfileNamesValue(init, id, i);
    }
  }

  /** The profile name a device is grouped under: its profile's name, or
      "Unknown" when the profile is missing or its name is empty. */
  function ProfileNameOf(d: Device, names: map<string, string>): string {
    if d.profileId in names && names[d.profileId] != "" then names[d.profileId] else "Unknown"
  }

  function GroupName(d: Device, names: map<string, string>): string {
    ProfileDisplayInfo(ProfileNameOf(d, names)).displayName
  }

  /** The two conditions of the filter effect: the selected profile (unless
      "all"), and the search text, lower-cased and trimmed, contained in the
      lower-cased name (unless the trimmed search is empty). */
  predicate Shown(d: Device, selected: string, search: string, lower: string -> string) {
    && (selected == "all" || d.profileId == selected)
    && (Text.Trim(search) == "" || Text.Contains(lower(d.name), Text.Trim(lower(search))))
  }

  function ShownBy(selected: string, search: string, lower: string -> string): Device -> bool {
    d => Shown(d, selected, search, lower)
  }

  /** The filter effect: first by profile, then by search text. */
  function FilterDevices(all: seq<Device>, selected: string, search: string, lower: string -> string): (r: seq<Device>)
    ensures r == Seqs.Keep(all, ShownBy(selected, search, lower))
    ensures Seqs.IsSubsequence(r, all)
    ensures forall i :: 0 <= i < |r| ==> Shown(r[i], selected, search, lower)
    ensures forall i :: 0 <= i < |all| && Shown(all[i], selected, search, lower) ==> all[i] in r
  {
    var byProfile := (d: Device) => d.profileId == selected;
    var bySearch := (d: Device) => Text.Contains(lower(d.name), Text.Trim(lower(search)));
    var shown := ShownBy(selected, search, lower);
    var devices := if selected != "all" then Seqs.Keep(all, byProfile) else all;
    var r := if Text.Trim(search) != "" then Seqs.Keep(devices, bySearch) else devices;
    assert r == Seqs.Keep(all, shown) by {
      if selected != "all" && Text.Trim(search) != "" {
        Seqs.KeepKeep(all, byProfile, bySearch, shown);
      } else if selected != "all" {
        Seqs.KeepCongruent(all, byProfile, shown);
      } else if Text.Trim(search) != "" {
        Seqs.KeepCongruent(all, bySearch, shown);
      } else {
        Seqs.KeepEverything(all, shown);
      }
    }
    r
  }

  /** `getDeviceCountForProfile(profileId)`. */
  function DeviceCountForProfile(all: seq<Device>, profileId: string): (n: nat)
    ensures profileId == "all" ==> n == |all|
    ensures n <= |all|
  {
    if profileId == "all" then |all|
    else |Seqs.Keep(all, (d: Device) => d.profileId == profileId)|
  }

  /** The count shown next to a profile is the length of the list the
      sidebar shows once that profile is selected and nothing is searched. */
  lemma CountMatchesFilter(all: seq<Device>, profileId: string, lower: string -> string)
    ensures DeviceCountForProfile(all, profileId) == |FilterDevices(all, profileId, "", lower)|
  {
    assert Text.Trim("") == "";
    if profileId != "all" {
      Seqs.KeepCongruent(all, (d: Device) => d.profileId == profileId, ShownBy(profileId, "", lower));
    }
  }

  /** The ids of a device list, as the keys of `deviceMap`. */
  function Known(devices: seq<Device>): set<string> {
    set d | d in devices :: d.id
  }

  /** `parentMap` and `childrenMap`. */
  datatype Links = Links(parent: map<string, string>, children: map<string, seq<string>>)

  /** A relation is used only when both its ends are known devices. */
  predicate Linkable(r: Relation, known: set<string>) {
    r.from in known && r.to in known
  }

  /** `i` is the last usable relation into `child`. */
  predicate LastLinkTo(rels: seq<Relation>, known: set<string>, child: string, i: int) {
    && 0 <= i < |rels| && Linkable(rels[i], known) && rels[i].to == child
    && forall j :: i < j < |rels| && Linkable(rels[j], known) ==> rels[j].to != child
  }

  predicate NoDuplicates(s: seq<string>) {
    forall i, j :: 0 <= i < j < |s| ==> s[i] != s[j]
  }

  /** One iteration of the relation loop. */
  function Link(m: Links, known: set<string>, r: Relation): Links {
    if r.to in known && r.from in known then
      var kids := if r.from in m.children then m.children[r.from] else [];
      Links(m.parent[r.to := r.from],
            m.children[r.from := if r.to in kids then kids else kids + [r.to]])
    else m
  }

  /** The relation loop over all relations, in order. */
  function BuildLinks(known: set<string>, rels: seq<Relation>): (m: Links)
    decreases |rels|
  {
    if |rels| == 0 then Links(map[], map[])
    else Link(BuildLinks(known, rels[..|rels| - 1]), known, rels[|rels| - 1])
  }

  /** A device has a parent exactly when some usable relation points to
      it. */
  lemma {:induction false} ParentIff(known: set<string>, rels: seq<Relation>, c: string)
    ensures c in BuildLinks(known, rels).parent
            <==> exists i :: 0 <= i < |rels| && Linkable(rels[i], known) && rels[i].to == c
    decreases |rels|
  {
    if |rels| > 0 {
      var init := rels[..|rels| - 1];
      var r := rels[|rels| - 1];
      var before := BuildLinks(known, init);
      assert BuildLinks(known, rels) == Link(before, known, r);
      ParentIff(known, init, c);
      if Linkable(r, known) && r.to == c {
        assert Linkable(rels[|rels| - 1], known) && rels[|rels| - 1].to == c;
      } else if c in before.parent {
        var i :| 0 <= i < |init| && Linkable(init[i], known) && init[i].to == c;
        assert rels[i] == init[i];
      } else {
        forall i | 0 <= i < |rels| && Linkable(rels[i], known)
          ensures rels[i].to != c
        {
          if i < |init| {
            assert rels[i] == init[i];
          }
        }
      }
    }
  }

  /** The parent recorded for a device is the source of the last usable
      relation into it. */
  lemma {:induction false} ParentLastWins(known: set<string>, rels: seq<Relation>, c: string, i: int)
    requires LastLinkTo(rels, known, c, i)
    ensures c in BuildLinks(known, rels).parent && BuildLinks(known, rels).parent[c] == rels[i].from
    decreases |rels|
  {
    var init := rels[..|rels| - 1];
    var r := rels[|rels| - 1];
    var before := BuildLinks(known, init);
    assert BuildLinks(known, rels) == Link(before, known, r);
    if i < |rels| - 1 {
      assert LastLinkTo(init, known, c, i);
      ParentLastWins(known, init, c, i);
    }
  }

  /** `c` is listed among the children of `p` exactly when the relation
      `p -> c` occurs and both ends are known devices. */
  lemma {:induction false} ChildrenIff(known: set<string>, rels: seq<Relation>, p: string, c: string)
    ensures (p in BuildLinks(known, rels).children && c in BuildLinks(known, rels).children[p])
            <==> Relation(p, c) in rels && p in known && c in known
    decreases |rels|
  {
    if |rels| > 0 {
      var init := rels[..|rels| - 1];
      var r := rels[|rels| - 1];
      ChildrenIff(known, init, p, c);
      assert rels == init + [r];
      if Relation(p, c) in rels && r != Relation(p, c) {
        assert Relation(p, c) in init;
      }
    }
  }

  /** Every children list is non-empty and free of repetitions, and a
      device has one exactly when some usable relation starts at it. */
  lemma {:induction false} ChildrenShape(known: set<string>, rels: seq<Relation>, p: string)
    ensures p in BuildLinks(known, rels).children
            <==> exists i :: 0 <= i < |rels| && Linkable(rels[i], known) && rels[i].from == p
    ensures p in BuildLinks(known, rels).children ==>
              NoDuplicates(BuildLinks(known, rels).children[p]) && |BuildLinks(known, rels).children[p]| > 0
    decreases |rels|
  {
    if |rels| > 0 {
      var init := rels[..|rels| - 1];
      var r := rels[|rels| - 1];
      var before := BuildLinks(known, init);
      ChildrenShape(known, init, p);
      if Linkable(r, known) && r.from == p {
        assert Linkable(rels[|rels| - 1], known) && rels[|rels| - 1].from == p;
        var kids := if p in before.children then before.children[p] else [];
        if r.to !in kids {
          var grown := kids + [r.to];
          forall i, j | 0 <= i < j < |grown|
            ensures grown[i] != grown[j]
          {
            if j == |kids| {
              assert grown[i] in kids;
            }
          }
        }
      } else if p in BuildLinks(known, rels).children {
        var i :| 0 <= i < |init| && Linkable(init[i], known) && init[i].from == p;
        assert rels[i] == init[i];
      }
    }
  }

  /** A listed child always has a parent entry, so it is never a root or a
      standalone device. */
  lemma ChildHasParent(known: set<string>, rels: seq<Relation>, p: string, c: string)
    requires p in BuildLinks(known, rels).children && c in BuildLinks(known, rels).children[p]
    ensures c in BuildLinks(known, rels).parent
  {
    ChildrenIff(known, rels, p, c);
    var i :| 0 <= i < |rels| && rels[i] == Relation(p, c);
    assert Linkable(rels[i], known) && rels[i].to == c;
    ParentIff(known, rels, c);
  }

  /** `isRootDevice`: no parent, some children. */
  predicate IsRoot(id: string, m: Links) {
    id !in m.parent && id in m.children
  }

  /** `isStandaloneDevice`: no parent, no children. */
  predicate IsStandalone(id: string, m: Links) {
    id !in m.parent && id !in m.children
  }

  /** The two kinds exclude each other, and a device is of neither kind
      exactly when it has a parent. */
  lemma RootStandaloneExclusive(id: string, m: Links)
    ensures !(IsRoot(id, m) && IsStandalone(id, m))
    ensures !IsRoot(id, m) && !IsStandalone(id, m) <==> id in m.parent
  {
  }

  /** The children recorded for a device, `childrenMap.get(id) || []`. */
  function ChildrenOf(m: Links, id: string): seq<string> {
    if id in m.children then m.children[id] else []
  }

  /** Links in which every listed child has a parent entry, as
      `BuildLinks` produces them. */
  predicate WellFormed(m: Links) {
    forall p, c :: p in m.children && c in m.children[p] ==> c in m.parent
  }

  lemma BuildLinksWellFormed(known: set<string>, rels: seq<Relation>)
    ensures WellFormed(BuildLinks(known, rels))
  {
    var m := BuildLinks(known, rels);
    forall p, c | p in m.children && c in m.children[p]
      ensures c in m.parent
    {
      ChildHasParent(known, rels, p, c);
    }
  }

  /** The state of the grouping loop: `grouped` with its keys in insertion
      order, and `processedDevices`. */
  datatype Grouping = Grouping(groups: map<string, seq<Device>>, order: seq<string>, processed: set<string>)

  const NoGroups := Grouping(map[], [], {})

  function GroupOf(g: Grouping, name: string): seq<Device> {
    if name in g.groups then g.groups[name] else []
  }

  /** One iteration of the grouping loop: a device not yet processed that
      is a root or standalone goes to the end of its group, and it and its
      children are marked processed. */
  function GroupStep(g: Grouping, d: Device, m: Links, names: map<string, string>): Grouping {
    if d.id in g.processed then g
    else if IsRoot(d.id, m) || IsStandalone(d.id, m) then
      var name := GroupName(d, names);
      Grouping(g.groups[name := GroupOf(g, name) + [d]],
               if name in g.groups then g.order else g.order + [name],
               g.processed + {d.id} + (set c | c in ChildrenOf(m, d.id)))
    else g
  }

  /** The grouping loop over the filtered devices, in order. */
  function GroupDevices(devices: seq<Device>, m: Links, names: map<string, string>): Grouping
    decreases |devices|
  {
    if |devices| == 0 then NoGroups
    else GroupStep(GroupDevices(devices[..|devices| - 1], m, names), devices[|devices| - 1], m, names)
  }

  /** The ids of a device list. */
  function IdsOf(s: seq<Device>): set<string> {
    set d | d in s :: d.id
  }

  /** The devices the grouping should show, defined without the processed
      set: the parentless devices, each id at its first occurrence. */
  function Selected(devices: seq<Device>, m: Links): seq<Device>
    decreases |devices|
  {
    if |devices| == 0 then []
    else
      var s := Selected(devices[..|devices| - 1], m);
      var d := devices[|devices| - 1];
      if d.id !in m.parent && d.id !in IdsOf(s) then s + [d] else s
  }

  /** `Selected` is what it claims to be: an order-preserving choice of
      parentless devices with distinct ids that covers every parentless
      id. */
  lemma SelectedIsFirstParentless(devices: seq<Device>, m: Links)
    ensures Seqs.IsSubsequence(Selected(devices, m), devices)
    ensures forall i :: 0 <= i < |Selected(devices, m)| ==> Selected(devices, m)[i].id !in m.parent
    ensures forall i, j :: 0 <= i < j < |Selected(devices, m)| ==> Selected(devices, m)[i].id != Selected(devices, m)[j].id
    ensures forall i :: 0 <= i < |devices| && devices[i].id !in m.parent ==> devices[i].id in IdsOf(Selected(devices, m))
  {
    SelectedSubsequence(devices, m);
    SelectedDistinctParentless(devices, m);
    SelectedCovers(devices, m);
  }

  lemma {:induction false} SelectedSubsequence(devices: seq<Device>, m: Links)
    ensures Seqs.IsSubsequence(Selected(devices, m), devices)
    decreases |devices|
  {
    if |devices| > 0 {
      var init := devices[..|devices| - 1];
      var d := devices[|devices| - 1];
      var s := Selected(init, m);
      SelectedSubsequence(init, m);
      assert devices == init + [d];
      if d.id !in m.parent && d.id !in IdsOf(s) {
        assert Selected(devices, m) == s + [d];
        Seqs.SubsequenceAppend(s, init, d);
      } else {
        assert Selected(devices, m) == s;
        Seqs.SubsequenceExtend(s, init, d);
      }
    }
  }

  lemma {:induction false} SelectedDistinctParentless(devices: seq<Device>, m: Links)
    ensures forall i :: 0 <= i < |Selected(devices, m)| ==> Selected(devices, m)[i].id !in m.parent
    ensures forall i, j :: 0 <= i < j < |Selected(devices, m)| ==> Selected(devices, m)[i].id != Selected(devices, m)[j].id
    decreases |devices|
  {
    if |devices| > 0 {
      var init := devices[..|devices| - 1];
      var d := devices[|devices| - 1];
      var s := Selected(init, m);
      SelectedDistinctParentless(init, m);
      if d.id !in m.parent && d.id !in IdsOf(s) {
        var r := s + [d];
        assert Selected(devices, m) == r;
        forall i, j | 0 <= i < j < |r|
          ensures r[i].id != r[j].id
        {
          if j == |s| {
            assert r[i] in s;
          }
        }
      } else {
        assert Selected(devices, m) == s;
      }
    }
  }

  lemma {:induction false} SelectedCovers(devices: seq<Device>, m: Links)
    ensures forall i :: 0 <= i < |devices| && devices[i].id !in m.parent ==> devices[i].id in IdsOf(Selected(devices, m))
    decreases |devices|
  {
    if |devices| > 0 {
      var init := devices[..|devices| - 1];
      var d := devices[|devices| - 1];
      var s := Selected(init, m);
      SelectedCovers(init, m);
      assert IdsOf(s) <= IdsOf(Selected(devices, m)) by {
        if d.id !in m.parent && d.id !in IdsOf(s) {
          assert Selected(devices, m) == s + [d];
          assert IdsOf(s + [d]) == IdsOf(s) + {d.id};
        } else {
          assert Selected(devices, m) == s;
        }
      }
      forall i | 0 <= i < |devices| && devices[i].id !in m.parent
        ensures devices[i].id in IdsOf(Selected(devices, m))
      {
        if i < |init| {
          assert devices[i] == init[i];
        }
      }
    }
  }

  /** For a parentless id, being processed is the same as having been
      selected: the children the loop marks all have parents, so marking
      them never shuts out an eligible device. */
  lemma {:induction false} ProcessedIffSelected(devices: seq<Device>, m: Links, names: map<string, string>, id: string)
    requires WellFormed(m)
    requires id !in m.parent
    ensures id in GroupDevices(devices, m, names).processed <==> id in IdsOf(Selected(devices, m))
    decreases |devices|
  {
    if |devices| > 0 {
      var init := devices[..|devices| - 1];
      var d := devices[|devices| - 1];
      var g := GroupDevices(init, m, names);
      var s := Selected(init, m);
      ProcessedIffSelected(init, m, names, id);
      RootStandaloneExclusive(d.id, m);
      if d.id !in m.parent {
        ProcessedIffSelected(init, m, names, d.id);
      }
      assert id !in ChildrenOf(m, d.id);
      if d.id !in g.processed && d.id !in m.parent {
        assert IdsOf(s + [d]) == IdsOf(s) + {d.id};
      }
    }
  }

  /** Devices of the group named `name`. */
  function InGroup(name: string, names: map<string, string>): Device -> bool {
    d => GroupName(d, names) == name
  }

  /** Each group holds exactly the selected devices of that display name,
      in filtered order. */
  lemma {:induction false} GroupContents(devices: seq<Device>, m: Links, names: map<string, string>, name: string)
    requires WellFormed(m)
    ensures GroupOf(GroupDevices(devices, m, names), name) == Seqs.Keep(Selected(devices, m), InGroup(name, names))
    decreases |devices|
  {
    if |devices| > 0 {
      var init := devices[..|devices| - 1];
      var d := devices[|devices| - 1];
      var g := GroupDevices(init, m, names);
      var s := Selected(init, m);
      GroupContents(init, m, names, name);
      assert GroupDevices(devices, m, names) == GroupStep(g, d, m, names);
      RootStandaloneExclusive(d.id, m);
      if d.id in m.parent {
        assert GroupStep(g, d, m, names) == g;
        assert Selected(devices, m) == s;
      } else {
        ProcessedIffSelected(init, m, names, d.id);
        if d.id in g.processed {
          assert Selected(devices, m) == s;
        } else {
          assert Selected(devices, m) == s + [d];
          GroupContentsStep(g, s, d, m, names, name);
        }
      }
    }
  }

  /** A device the loop takes lands at the end of its own group and leaves
      the other groups alone, as appending it to the selection does. */
  lemma GroupContentsStep(g: Grouping, s: seq<Device>, d: Device, m: Links, names: map<string, string>, name: string)
    requires d.id !in g.processed && (IsRoot(d.id, m) || IsStandalone(d.id, m))
    requires GroupOf(g, name) == Seqs.Keep(s, InGroup(name, names))
    ensures GroupOf(GroupStep(g, d, m, names), name) == Seqs.Keep(s + [d], InGroup(name, names))
  {
    var p := InGroup(name, names);
    Seqs.KeepAppend(s, [d], p);
    assert Seqs.Keep([d], p) == if GroupName(d, names) == name then [d] else [];
    var after := GroupStep(g, d, m, names);
    assert after.groups == g.groups[GroupName(d, names) := GroupOf(g, GroupName(d, names)) + [d]];
    assert GroupOf(after, name) == GroupOf(g, name) + (if GroupName(d, names) == name then [d] else []);
  }

  /** The group keys are listed once each, in the order their first device
      was met, and no listed group is empty. */
  lemma {:induction false} GroupOrderShape(devices: seq<Device>, m: Links, names: map<string, string>)
    ensures NoDuplicates(GroupDevices(devices, m, names).order)
    ensures forall name :: name in GroupDevices(devices, m, names).order <==> name in GroupDevices(devices, m, names).groups
    ensures forall name :: name in GroupDevices(devices, m, names).groups ==> |GroupDevices(devices, m, names).groups[name]| > 0
    decreases |devices|
  {
    if |devices| > 0 {
      var init := devices[..|devices| - 1];
      var d := devices[|devices| - 1];
      var g := GroupDevices(init, m, names);
      GroupOrderShape(init, m, names);
      var name := GroupName(d, names);
      if d.id !in g.processed && (IsRoot(d.id, m) || IsStandalone(d.id, m)) && name !in g.groups {
        var o := g.order + [name];
        forall i, j | 0 <= i < j < |o|
          ensures o[i] != o[j]
        {
          if j == |g.order| {
            assert o[i] in g.order;
          }
        }
      }
    }
  }

  /** The grouping as a whole: the devices shown under the groups are
      exactly the parentless filtered devices, each id once, in filtered
      order, each under its display name. */
  lemma GroupedDevices(devices: seq<Device>, known: set<string>, rels: seq<Relation>,
                       names: map<string, string>, name: string)
    ensures var m := BuildLinks(known, rels);
            var shown := Selected(devices, m);
            && GroupOf(GroupDevices(devices, m, names), name) == Seqs.Keep(shown, InGroup(name, names))
            && Seqs.IsSubsequence(shown, devices)
            && (forall i :: 0 <= i < |shown| ==> shown[i].id !in m.parent)
            && (forall i, j :: 0 <= i < j < |shown| ==> shown[i].id != shown[j].id)
            && (forall i :: 0 <= i < |devices| && devices[i].id !in m.parent ==> devices[i].id in IdsOf(shown))
  {
    var m := BuildLinks(known, rels);
    BuildLinksWellFormed(known, rels);
    GroupContents(devices, m, names, name);
    SelectedIsFirstParentless(devices, m);
  }

  /** The group order: the four known groups in this order, any other
      group after them. */
  const DesiredOrder := ["Camera", "Gateway", "Sensorbase", "File Uploader Device"]

  /** The sort key, `desiredOrder.indexOf(name)` with -1 replaced by the
      length of the list. */
  function GroupRank(name: string): (k: nat)
    ensures k <= |DesiredOrder|
    ensures k < |DesiredOrder| ==> DesiredOrder[k] == name
    ensures k == |DesiredOrder| <==> name !in DesiredOrder
  {
    if name == "Camera" then 0
    else if name == "Gateway" then 1
    else if name == "Sensorbase" then 2
    else if name == "File Uploader Device" then 3
    else 4
  }

  /** The group names in display order: a stable sort by `GroupRank`. */
  function OrderGroups(names: seq<string>): seq<string> {
    Ranking.Buckets(names, GroupRank, 0, |DesiredOrder|)
  }

  /** The group order is a stable sort by rank: the same names, ranks
      ascending, and names of equal rank in their original order. */
  lemma GroupOrderIsStableSort(names: seq<string>)
    ensures multiset(OrderGroups(names)) == multiset(names)
    ensures Ranking.SortedBy(OrderGroups(names), GroupRank)
    ensures forall k :: Seqs.Keep(OrderGroups(names), Ranking.RankIs(GroupRank, k))
                        == Seqs.Keep(names, Ranking.RankIs(GroupRank, k))
  {
    Ranking.StableSort(names, GroupRank, |DesiredOrder|);
  }

  /** `deviceMap`: device id to device, the later device winning when an
      id repeats. */
  function DeviceIndex(all: seq<Device>): (index: map<string, Device>)
    ensures index.Keys == Known(all)
    ensures forall id :: id in index ==> index[id].id == id && index[id] in all
    decreases |all|
  {
    if |all| == 0 then map[]
    else
      var init := all[..|all| - 1];
      var d := all[|all| - 1];
      var before := DeviceIndex(init);
      assert all == init + [d];
      assert Known(all) == Known(init) + {d.id};
      before[d.id := d]
  }

  /** `getDeviceChildren(id)`: the recorded children that are known
      devices, in the recorded order. */
  function Resolve(ids: seq<string>, index: map<string, Device>): (r: seq<Device>)
    ensures |r| <= |ids|
    ensures forall i :: 0 <= i < |r| ==> r[i] in index.Values
    decreases |ids|
  {
    if |ids| == 0 then []
    else
      var rest := Resolve(ids[1..], index);
      if ids[0] in index then [index[ids[0]]] + rest
      else rest
  }

  function DeviceChildren(id: string, m: Links, index: map<string, Device>): seq<Device> {
    Resolve(ChildrenOf(m, id), index)
  }

  /** When every id is a key whose device carries that id, resolving loses
      nothing and keeps the order. */
  lemma {:induction false} ResolveComplete(ids: seq<string>, index: map<string, Device>)
    requires forall i :: 0 <= i < |ids| ==> ids[i] in index && index[ids[i]].id == ids[i]
    ensures |Resolve(ids, index)| == |ids|
    ensures forall i :: 0 <= i < |ids| ==> Resolve(ids, index)[i].id == ids[i]
    decreases |ids|
  {
    if |ids| > 0 {
      assert ids[0] in index;
      ResolveComplete(ids[1..], index);
      var r := Resolve(ids, index);
      forall i | 0 <= i < |ids|
        ensures r[i].id == ids[i]
      {
        if i > 0 {
          assert r[i] == Resolve(ids[1..], index)[i - 1];
        }
      }
    }
  }

  /** With the maps built from the same device list, every recorded child
      of a device is shown beneath it, in the recorded order. */
  lemma DeviceChildrenComplete(all: seq<Device>, rels: seq<Relation>, id: string)
    ensures var m := BuildLinks(Known(all), rels);
            var kids := DeviceChildren(id, m, DeviceIndex(all));
            && |kids| == |ChildrenOf(m, id)|
            && (forall i :: 0 <= i < |kids| ==> kids[i].id == ChildrenOf(m, id)[i])
  {
    var m := BuildLinks(Known(all), rels);
    var index := DeviceIndex(all);
    var ids := ChildrenOf(m, id);
    forall i | 0 <= i < |ids|
      ensures ids[i] in index && index[ids[i]].id == ids[i]
    {
      ChildrenIff(Known(all), rels, id, ids[i]);
    }
    ResolveComplete(ids, index);
  }

  /** `getParentDevice(id)`: `parentId ? deviceMap.get(parentId) || null :
      null`. An empty parent id is falsy, so it gives no parent. */
  function ParentDevice(id: string, m: Links, index: map<string, Device>): (r: Option<Device>)
    ensures r.Some? <==> id in m.parent && m.parent[id] != "" && m.parent[id] in index
    ensures r.Some? ==> r.value == index[m.parent[id]]
  {
    if id in m.parent && m.parent[id] != "" && m.parent[id] in index then Some(index[m.parent[id]])
    else None
  }

  /** The left padding, in pixels, of a row drawn at nesting `level`:
      12 for a device without children and without a parent device, 60
      for a camera under a sensorbase, `level * 20 + 12` otherwise. The
      profile names here are the raw ones, without the "Unknown" default. */
  function Padding(d: Device, level: nat, m: Links, index: map<string, Device>, names: map<string, string>): (px: nat)
    ensures px >= 12
    ensures px == 12 || px == 60 || px == level * 20 + 12
  {
    var hasChildren := |ChildrenOf(m, d.id)| > 0;
    var parent := ParentDevice(d.id, m, index);
    var profileName := if d.profileId in names then Some(names[d.profileId]) else None;
    var parentProfileName :=
      if parent.Some? && parent.value.profileId in names then Some(names[parent.value.profileId]) else None;
    var cameraUnderSensorbase := profileName == Some(CameraCode) && parentProfileName == Some(SensorbaseCode);
    if !hasChildren && parent.None? then 12
    else if cameraUnderSensorbase then 60
    else level * 20 + 12
  }

  /** Every top-level row, root or standalone, is drawn at 12 pixels. */
  lemma TopLevelPadding(d: Device, m: Links, index: map<string, Device>, names: map<string, string>)
    requires IsRoot(d.id, m) || IsStandalone(d.id, m)
    ensures Padding(d, 0, m, index, names) == 12
  {
  }

  /** A device whose parent is known is indented by level, except a
      camera whose parent's profile is the sensorbase, which is always at
      60 pixels, whatever its level. */
  lemma ChildPadding(d: Device, level: nat, all: seq<Device>, rels: seq<Relation>, names: map<string, string>)
    requires d.id in BuildLinks(Known(all), rels).parent
    requires BuildLinks(Known(all), rels).parent[d.id] != ""
    ensures var m := BuildLinks(Known(all), rels);
            var index := DeviceIndex(all);
            && m.parent[d.id] in index
            && Padding(d, level, m, index, names)
               == if d.profileId in names && names[d.profileId] == CameraCode
                     && index[m.parent[d.id]].profileId in names
                     && names[index[m.parent[d.id]].profileId] == SensorbaseCode
                  then 60 else level * 20 + 12
  {
    var m := BuildLinks(Known(all), rels);
    ParentIff(Known(all), rels, d.id);
    var i :| 0 <= i < |rels| && Linkable(rels[i], Known(all)) && rels[i].to == d.id;
    var j := LastLinkIndex(rels, Known(all), d.id, i);
    ParentLastWins(Known(all), rels, d.id, j);
    assert m.parent[d.id] in Known(all);
  }

  /** The last usable relation into `child` at or after a usable one. */
  lemma {:induction false} LastLinkIndex(rels: seq<Relation>, known: set<string>, child: string, i: int) returns (j: int)
    requires 0 <= i < |rels| && Linkable(rels[i], known) && rels[i].to == child
    ensures LastLinkTo(rels, known, child, j)
    decreases |rels| - i
  {
    if forall k :: i < k < |rels| && Linkable(rels[k], known) ==> rels[k].to != child {
      j := i;
    } else {
      var k :| i < k < |rels| && Linkable(rels[k], known) && rels[k].to == child;
      j := LastLinkIndex(rels, known, child, k);
    }
  }

  /** The profile filter offers every profile except those named
      "default" in any case. */
  function ProfileOptions(profiles: seq<Profile>, lower: string -> string): (r: seq<Profile>)
    ensures Seqs.IsSubsequence(r, profiles)
    ensures forall i :: 0 <= i < |r| ==> lower(r[i].name) != "default"
    ensures forall i :: 0 <= i < |profiles| && lower(profiles[i].name) != "default" ==> profiles[i] in r
  {
    Seqs.Keep(profiles, (p: Profile) => lower(p.name) != "default")
  }
}

=== FILE: gateways.dfy ===
/** The gateway table of
    `src/pages/Home/sections/GatewayListSection/GatewayListSection.tsx`:
    the row each device is shown as, the online-first order, the
    pagination buttons, the "a-b of n" label and the merge of pushed
    measurement status into the fetched one.

    `compare` stands for `String.prototype.localeCompare`; a string
    attribute is read as a number through `toNumber`, `None` standing for
    `NaN`. */
module Gateways {
  import opened Optional
  import Text

  /** The fields of a gateway device the table reads: `id.id`, `name` and
      `active`. */
  datatype GatewayDevice = GatewayDevice(id: string, name: string, active: bool)

  /** An attribute value as JSON gives it. Numbers are integers here. */
  datatype JsValue = Undefined | Null | Bool(b: bool) | Num(n: int) | Str(s: string)

  /** JavaScript truthiness. */
  predicate Truthy(v: JsValue) {
    match v
    case Undefined => false
    case Null => false
    case Bool(b) => b
    case Num(n) => n != 0
    case Str(s) => s != ""
  }

  /** `v ?? fallback`. */
  function Nullish(v: JsValue, fallback: JsValue): JsValue {
    if v == Undefined || v == Null then fallback else v
  }

  /** `arr?.[0]?.value`, with a missing element read as `undefined`. */
  function FirstValue(values: seq<JsValue>): JsValue {
    if |values| > 0 then values[0] else Undefined
  }

  /** One entry of an attribute list: `{ key, value }`. */
  datatype Attr = Attr(key: string, value: JsValue)

  /** The two shapes the attributes of a device come in: a list of
      `{ key, value }` entries, or an object from attribute name to a list
      of values. */
  datatype Attributes =
    | AttrList(entries: seq<Attr>)
    | AttrRecord(fields: map<string, seq<JsValue>>)

  const NoAttributes := AttrRecord(map[])

  /** `deviceAttributes?.measurement_started?.[0]?.value`: an attribute
      list has no such property. */
  function MeasurementAttr(attrs: Attributes): JsValue {
    match attrs
    case AttrList(_) => Undefined
    case AttrRecord(fields) =>
      if "measurement_started" in fields then FirstValue(fields["measurement_started"]) else Undefined
  }

  /** The value of the first list entry with the given key. */
  function FindAttr(entries: seq<Attr>, key: string): (v: JsValue)
    ensures v != Undefined ==> exists i :: 0 <= i < |entries| && entries[i].key == key && entries[i].value == v
    ensures (forall i :: 0 <= i < |entries| ==> entries[i].key != key) ==> v == Undefined
    ensures forall i :: 0 <= i < |entries| && entries[i].key == key && (forall j :: 0 <= j < i ==> entries[j].key != key) ==> v == entries[i].value
    decreases |entries|
  {
    if |entries| == 0 then Undefined
    else if entries[0].key == key then entries[0].value
    else
      var v := FindAttr(entries[1..], key);
      assert v != Undefined ==> exists i :: 0 <= i < |entries| && entries[i].key == key && entries[i].value == v by {
        if v != Undefined {
          var i :| 0 <= i < |entries[1..]| && entries[1..][i].key == key && entries[1..][i].value == v;
          assert entries[i + 1] == entries[1..][i];
        }
      }
      v
  }

  /** The upload interval attribute: found by key in a list, or the first
      value of the `upload_interval_time` array. */
  function IntervalAttr(attrs: Attributes): JsValue {
    match attrs
    case AttrList(entries) => FindAttr(entries, "upload_interval_time")
    case AttrRecord(fields) =>
      if "upload_interval_time" in fields then FirstValue(fields["upload_interval_time"]) else Undefined
  }

  /** `Math.floor(value / 60)` for a truthy value, as a number or `NaN`.
      Dafny's `/` rounds down for a positive divisor, as `Math.floor`
      does. */
  function Minutes(v: JsValue, toNumber: string -> Option<int>): Option<int> {
    match v
    case Num(n) => Some(n / 60)
    case Bool(b) => Some(if b then 1 / 60 else 0)
    case Str(s) => if toNumber(s).Some? then Some(toNumber(s).value / 60) else None
    case _ => None
  }

  /** The upload interval column: "<minutes> mins" when the attribute is
      truthy, otherwise "-". */
  function UploadInterval(v: JsValue, toNumber: string -> Option<int>): (text: string)
    ensures !Truthy(v) <==> text == "-"
    ensures v.Num? && v.n != 0 ==> text == Text.IntToString(v.n / 60) + " mins"
    ensures v == Bool(true) ==> text == "0 mins"
    ensures v.Str? && v.s != "" ==>
              text == (if toNumber(v.s).Some? then Text.IntToString(toNumber(v.s).value / 60) + " mins" else "NaN mins")
  {
    if Truthy(v) then
      match Minutes(v, toNumber)
      case Some(m) => Text.IntToString(m) + " mins"
      case None => "NaN mins"
    else "-"
  }

  /** A row of the table, as `transformGatewayData` returns it. */
  datatype Row = Row(name: string, status: string, statusColor: string, measurement: string,
                     measurementType: string, uploadInterval: string)

  const OnlineColor := "#1fc06a"
  const OfflineColor := "#7b7b7b"

  /** `transformGatewayData(device, attrs, connected)`: the connection
      flag, when given, decides the status, otherwise `device.active`
      does. */
  function TransformGatewayData(device: GatewayDevice, attrs: Attributes, connected: Option<bool>,
                                toNumber: string -> Option<int>): (row: Row)
    ensures row.name == device.name
    ensures var online := if connected.Some? then connected.value else device.active;
            && (row.status == "Online" <==> online)
            && (row.status == "Online" || row.status == "Offline")
            && (row.statusColor == OnlineColor <==> online)
            && (row.statusColor == OnlineColor || row.statusColor == OfflineColor)
            && (row.measurement == "Started" <==>
                  Truthy(Nullish(MeasurementAttr(attrs), Bool(online))))
    ensures row.measurement == "Started" <==> row.measurementType == "started"
    ensures row.measurement == "Started" || row.measurement == "Stopped"
    ensures row.measurementType == "started" || row.measurementType == "stopped"
    ensures row.uploadInterval == UploadInterval(IntervalAttr(attrs), toNumber)
  {
    var isActive := if connected.Some? then connected.value else device.active;
    var started := Truthy(Nullish(MeasurementAttr(attrs), Bool(isActive)));
    Row(device.name,
        if isActive then "Online" else "Offline",
        if isActive then OnlineColor else OfflineColor,
        if started then "Started" else "Stopped",
        if started then "started" else "stopped",
        UploadInterval(IntervalAttr(attrs), toNumber))
  }

  /** The status and colour columns always tell the same story. */
  lemma StatusAgreesWithColour(device: GatewayDevice, attrs: Attributes, connected: Option<bool>,
                               toNumber: string -> Option<int>)
    ensures var row := TransformGatewayData(device, attrs, connected, toNumber);
            row.status == "Online" <==> row.statusColor == OnlineColor
  {
  }

  /** Without a measurement attribute the measurement column follows the
      online status. */
  lemma MeasurementDefaultsToStatus(device: GatewayDevice, connected: Option<bool>, toNumber: string -> Option<int>)
    ensures var row := TransformGatewayData(device, NoAttributes, connected, toNumber);
            row.measurement == "Started" <==> row.status == "Online"
  {
  }

  /** An explicit `false` is not nullish, so it shows "Stopped" even for an
      online device. */
  lemma ExplicitFalseStops(device: GatewayDevice, connected: Option<bool>, toNumber: string -> Option<int>)
    ensures TransformGatewayData(device, AttrRecord(map["measurement_started" := [Bool(false)]]), connected,
                                 toNumber).measurement == "Stopped"
  {
  }

  /** A zero interval is falsy and shows "-"; a positive number of seconds
      shows the whole minutes it contains. */
  lemma IntervalInMinutes(seconds: int, toNumber: string -> Option<int>)
    ensures seconds == 0 ==> UploadInterval(Num(seconds), toNumber) == "-"
    ensures seconds > 0 ==> UploadInterval(Num(seconds), toNumber) == Text.IntToString(seconds / 60) + " mins"
                            && (seconds / 60) * 60 <= seconds < (seconds / 60) * 60 + 60
  {
  }

  /** The rows of the page, reading each device's attributes with
      `measurementStatus[id] || {}`. */
  function Rows(devices: seq<GatewayDevice>, status: map<string, Attributes>, connected: Option<bool>,
                toNumber: string -> Option<int>): (rows: seq<Row>)
    ensures |rows| == |devices|
    ensures forall i :: 0 <= i < |devices| ==>
              rows[i] == TransformGatewayData(devices[i], if devices[i].id in status then status[devices[i].id]
                                                          else NoAttributes, connected, toNumber)
  {
    seq(|devices|, i requires 0 <= i < |devices| =>
      TransformGatewayData(devices[i], if devices[i].id in status then status[devices[i].id] else NoAttributes,
                           connected, toNumber))
  }

  /** Once the connection flag is given, it alone decides every row's
      status: all rows read "Online" or all read "Offline", whatever each
      device's own `active` says. */
  lemma ConnectionFlagDecidesStatus(devices: seq<GatewayDevice>, status: map<string, Attributes>, flag: bool,
                                    toNumber: string -> Option<int>)
    ensures var rows := Rows(devices, status, Some(flag), toNumber);
            forall i :: 0 <= i < |rows| ==> (rows[i].status == "Online" <==> flag)
  {
  }

  /** `a` goes before `b` under the comparator of the sort: online before
      offline, then by `compare` on the names. */
  predicate Precedes(a: GatewayDevice, b: GatewayDevice, compare: (string, string) -> int) {
    if a.active != b.active then a.active else compare(a.name, b.name) <= 0
  }

  /** What `localeCompare` is taken to be: a total preorder. */
  ghost predicate TotalPreorder(compare: (string, string) -> int) {
    && (forall x, y :: compare(x, y) <= 0 || compare(y, x) <= 0)
    && (forall x, y, z :: compare(x, y) <= 0 && compare(y, z) <= 0 ==> compare(x, z) <= 0)
  }

  predicate Sorted(s: seq<GatewayDevice>, compare: (string, string) -> int) {
    forall i, j :: 0 <= i < j < |s| ==> Precedes(s[i], s[j], compare)
  }

  /** Insert `x` before the first element it precedes. */
  function Insert(x: GatewayDevice, s: seq<GatewayDevice>, compare: (string, string) -> int): (r: seq<GatewayDevice>)
    ensures multiset(r) == multiset(s) + multiset{x}
    decreases |s|
  {
    if |s| == 0 then [x]
    else if Precedes(x, s[0], compare) then [x] + s
    else
      assert s == [s[0]] + s[1..];
      [s[0]] + Insert(x, s[1..], compare)
  }

  /** The stable sort of the fetched page. */
  function SortGateways(s: seq<GatewayDevice>, compare: (string, string) -> int): (r: seq<GatewayDevice>)
    ensures multiset(r) == multiset(s)
    decreases |s|
  {
    if |s| == 0 then []
    else
      assert s == [s[0]] + s[1..];
      Insert(s[0], SortGateways(s[1..], compare), compare)
  }

  lemma {:induction false} InsertSorted(x: GatewayDevice, s: seq<GatewayDevice>, compare: (string, string) -> int)
    requires TotalPreorder(compare)
    requires Sorted(s, compare)
    ensures Sorted(Insert(x, s, compare), compare)
    decreases |s|
  {
    if |s| > 0 && !Precedes(x, s[0], compare) {
      var rest := Insert(x, s[1..], compare);
      assert Insert(x, s, compare) == [s[0]] + rest;
      SortedTail(s, compare);
      InsertSorted(x, s[1..], compare);
      assert Precedes(s[0], x, compare);
      HeadPrecedesInsert(x, s, compare);
      SortedCons(s[0], rest, compare);
    }
  }

  lemma SortedTail(s: seq<GatewayDevice>, compare: (string, string) -> int)
    requires Sorted(s, compare) && |s| > 0
    ensures Sorted(s[1..], compare)
  {
    forall i, j | 0 <= i < j < |s[1..]|
      ensures Precedes(s[1..][i], s[1..][j], compare)
    {
      assert s[1..][i] == s[i + 1] && s[1..][j] == s[j + 1];
    }
  }

  /** The head of a sorted list that `x` goes after precedes everything
      the insertion into its tail returns. */
  lemma HeadPrecedesInsert(x: GatewayDevice, s: seq<GatewayDevice>, compare: (string, string) -> int)
    requires Sorted(s, compare) && |s| > 0 && Precedes(s[0], x, compare)
    ensures forall k :: 0 <= k < |Insert(x, s[1..], compare)| ==> Precedes(s[0], Insert(x, s[1..], compare)[k], compare)
  {
    var rest := Insert(x, s[1..], compare);
    forall k | 0 <= k < |rest|
      ensures Precedes(s[0], rest[k], compare)
    {
      assert rest[k] in multiset(rest);
      if rest[k] != x {
        assert rest[k] in multiset(s[1..]);
        var j :| 0 <= j < |s[1..]| && s[1..][j] == rest[k];
        assert s[j + 1] == rest[k];
      }
    }
  }

  lemma SortedCons(h: GatewayDevice, rest: seq<GatewayDevice>, compare: (string, string) -> int)
    requires Sorted(rest, compare)
    requires forall k :: 0 <= k < |rest| ==> Precedes(h, rest[k], compare)
    ensures Sorted([h] + rest, compare)
  {
    var r := [h] + rest;
    forall i, j | 0 <= i < j < |r|
      ensures Precedes(r[i], r[j], compare)
    {
      if i == 0 {
        assert r[j] == rest[j - 1];
      } else {
        assert r[i] == rest[i - 1] && r[j] == rest[j - 1];
      }
    }
  }

  /** The sort returns the same devices, ordered by the comparator; in
      particular every online device comes before every offline one. */
  lemma {:induction false} SortIsOrderedPermutation(s: seq<GatewayDevice>, compare: (string, string) -> int)
    requires TotalPreorder(compare)
    ensures multiset(SortGateways(s, compare)) == multiset(s)
    ensures Sorted(SortGateways(s, compare), compare)
    ensures forall i, j :: 0 <= i < j < |SortGateways(s, compare)| && SortGateways(s, compare)[j].active ==>
              SortGateways(s, compare)[i].active
    decreases |s|
  {
    if |s| > 0 {
      SortIsOrderedPermutation(s[1..], compare);
      InsertSorted(s[0], SortGateways(s[1..], compare), compare);
    }
  }

  /** The page state: the current page index and the page count of the
      last response. */
  datatype Pager = Pager(page: int, totalPages: int)

  datatype Click = First | Prev | Next | Last

  /** The four handlers. */
  function Press(p: Pager, click: Click): (r: Pager)
    ensures r.totalPages == p.totalPages
    ensures click == First ==> r.page == 0
    ensures click == Last ==> r.page == p.totalPages - 1
    ensures click == Prev ==> r.page >= 0 && (p.page >= 1 ==> r.page == p.page - 1) && (p.page <= 1 ==> r.page == 0)
    ensures click == Next ==> r.page <= p.totalPages - 1 && (p.page + 1 <= p.totalPages - 1 ==> r.page == p.page + 1)
                              && (p.page + 1 >= p.totalPages - 1 ==> r.page == p.totalPages - 1)
  {
    match click
    case First => p.(page := 0)
    case Last => p.(page := p.totalPages - 1)
    case Prev => p.(page := if 0 > p.page - 1 then 0 else p.page - 1)
    case Next => p.(page := if p.totalPages - 1 < p.page + 1 then p.totalPages - 1 else p.page + 1)
  }

  /** With no pages, Next and Last go to page -1. */
  lemma NoPagesGivesMinusOne(page: int)
    requires page >= -1
    ensures Press(Pager(page, 0), Next).page == -1
    ensures Press(Pager(page, 0), Last).page == -1
  {
  }

  /** The buttons: First and Prev are disabled on page 0, Next and Last
      on the last page or beyond. */
  predicate Enabled(p: Pager, click: Click) {
    match click
    case First => p.page != 0
    case Prev => p.page != 0
    case Next => p.page < p.totalPages - 1
    case Last => p.page < p.totalPages - 1
  }

  /** A page index the table can show. */
  predicate InRange(p: Pager) {
    if p.totalPages > 0 then 0 <= p.page < p.totalPages else p.page == 0
  }

  /** Clicking enabled buttons keeps the page in range; in particular the
      -1 of an empty result is out of reach of the buttons. */
  lemma EnabledClickKeepsRange(p: Pager, click: Click)
    requires InRange(p) && Enabled(p, click)
    ensures InRange(Press(p, click))
  {
  }

  function Clicks(p: Pager, clicks: seq<Click>): Pager
    decreases |clicks|
  {
    if |clicks| == 0 then p
    else Clicks(if Enabled(p, clicks[0]) then Press(p, clicks[0]) else p, clicks[1..])
  }

  lemma {:induction false} ClicksKeepRange(p: Pager, clicks: seq<Click>)
    requires InRange(p)
    ensures InRange(Clicks(p, clicks))
    decreases |clicks|
  {
    if |clicks| > 0 {
      if Enabled(p, clicks[0]) {
        EnabledClickKeepsRange(p, clicks[0]);
      }
      ClicksKeepRange(if Enabled(p, clicks[0]) then Press(p, clicks[0]) else p, clicks[1..]);
    }
  }

  /** The first and last row numbers of the current page. */
  function RangeStart(page: int, size: int): int {
    page * size + 1
  }

  function RangeEnd(page: int, size: int, total: int): int {
    if (page + 1) * size < total then (page + 1) * size else total
  }

  /** The "a-b of n" label under the table. */
  function RangeLabel(page: int, size: int, total: int): (text: string)
    ensures total <= 0 ==> text == "0 of 0"
    ensures total > 0 ==> text == Text.IntToString(RangeStart(page, size)) + "-"
                                  + Text.IntToString(RangeEnd(page, size, total)) + " of " + Text.IntToString(total)
  {
    if total > 0 then
      Text.IntToString(page * size + 1) + "-" + Text.IntToString(if (page + 1) * size < total then (page + 1) * size else total)
      + " of " + Text.IntToString(total)
    else "0 of 0"
  }

  /** On a page that holds rows, the label names the rows it shows: it
      starts at a row that exists, ends no later than the last row, and
      counts at most a page of rows. */
  lemma RangeCountsRowsShown(page: int, size: int, total: int)
    requires page >= 0 && size > 0 && page * size < total
    ensures 1 <= RangeStart(page, size) <= RangeEnd(page, size, total) <= total
    ensures RangeEnd(page, size, total) - RangeStart(page, size) + 1
            == if total - page * size < size then total - page * size else size
  {
    assert (page + 1) * size == page * size + size;
  }

  /** A page index left beyond the data, as after a search that shrinks
      the result, gives a label whose start is after its end. */
  lemma StaleRangeInverted(page: int, size: int, total: int)
    requires size > 0 && total > 0 && page * size >= total
    ensures RangeStart(page, size) > RangeEnd(page, size, total)
  {
    assert (page + 1) * size == page * size + size;
  }

  /** The merge of pushed status into the fetched one:
      `{ ...prev, ...pushed }` when the payload has any key. */
  function MergeStatus(prev: map<string, Attributes>, pushed: Option<map<string, Attributes>>): (r: map<string, Attributes>)
    ensures pushed.None? || pushed.value == map[] ==> r == prev
    ensures pushed.Some? ==> forall id :: id in pushed.value ==> id in r && r[id] == pushed.value[id]
    ensures forall id :: id in prev && (pushed.None? || id !in pushed.value) ==> id in r && r[id] == prev[id]
    ensures forall id :: id in r ==> id in prev || (pushed.Some? && id in pushed.value)
  {
    if pushed.Some? && |pushed.value| > 0 then prev + pushed.value
    else
      assert pushed.Some? ==> pushed.value == map[];
      prev
  }

  /** Merging the same payload twice is merging it once. */
  lemma MergeIdempotent(prev: map<string, Attributes>, pushed: Option<map<string, Attributes>>)
    ensures MergeStatus(MergeStatus(prev, pushed), pushed) == MergeStatus(prev, pushed)
  {
  }
}

=== FILE: login_form.dfy ===
/** The input handling of the login form in
    `src/components/ui/login-form.tsx`: the white-space warning kept in
    step with the two fields, the trimming of the credentials on submit,
    and what a successful login writes to the browser.

    The login request itself is a parameter: its outcome is given, not
    computed. `enc`, `utc` and times are as in `Cookies`. */
module LoginForm {
  import opened Optional
  import Text
  import Cookies

  datatype Field = Email | Password

  /** The component state the handlers read and write. */
  datatype Form = Form(email: string, password: string, warning: string, error: string)

  const Initial := Form("", "", "", "")

  const RemovedWarning := "Extra whitespace has been automatically removed."
  const DefaultError := "Login failed. Please try again."

  /** The access token cookie lives one hour, the refresh token cookie
      seven days. */
  const AccessLifetimeMs := 3600000
  const RefreshLifetimeMs := 604800000

  function FieldName(field: Field): string {
    match field
    case Email => "email"
    case Password => "password"
  }

  /** The live warning `handleInputChange` shows for a field. */
  function DetectedWarning(field: Field): string {
    "Extra whitespace detected in " + FieldName(field) + ". Will be removed during login."
  }

  function Value(form: Form, field: Field): string {
    match field
    case Email => form.email
    case Password => form.password
  }

  function Other(field: Field): Field {
    match field
    case Email => Password
    case Password => Email
  }

  /** The invariant the two handlers keep: a warning is shown exactly when
      one of the fields has white space at an end. */
  predicate Consistent(form: Form) {
    form.warning != "" <==> (Text.HasEdgeSpace(form.email) || Text.HasEdgeSpace(form.password))
  }

  /** `handleInputChange`: store the typed value; warn about this field if
      it has white space at an end, otherwise clear the warning unless the
      other field still has some. */
  function InputChange(form: Form, field: Field, value: string): (r: Form)
    ensures Value(r, field) == value && Value(r, Other(field)) == Value(form, Other(field))
    ensures r.error == form.error
    ensures Text.HasEdgeSpace(value) ==> r.warning == DetectedWarning(field)
    ensures !Text.HasEdgeSpace(value) && !Text.HasEdgeSpace(Value(form, Other(field))) ==> r.warning == ""
    ensures !Text.HasEdgeSpace(value) && Text.HasEdgeSpace(Value(form, Other(field))) ==> r.warning == form.warning
  {
    var stored := match field
      case Email => form.(email := value)
      case Password => form.(password := value);
    if Text.HasEdgeSpace(value) && |value| > 0 then
      stored.(warning := DetectedWarning(field))
    else if !Text.HasEdgeSpace(Value(form, Other(field))) then
      stored.(warning := "")
    else
      stored
  }

  /** Typing keeps the invariant. The warning shown may still name a field
      that has since been cleaned while the other one is dirty: the
      invariant is about whether a warning is shown, not which field it
      names. */
  lemma InputChangeKeepsConsistent(form: Form, field: Field, value: string)
    requires Consistent(form)
    ensures Consistent(InputChange(form, field, value))
  {
    var r := InputChange(form, field, value);
    assert DetectedWarning(field) != "";
    match field
    case Email =>
      assert r.email == value && r.password == form.password;
    case Password =>
      assert r.password == value && r.email == form.email;
  }

  /** The credentials `handleSubmit` sends. */
  datatype Credentials = Credentials(email: string, password: string)

  /** What the login request answered: tokens, or an error whose
      `message` may be missing. */
  datatype Outcome =
    | Accepted(token: string, refreshToken: string)
    | Rejected(message: Option<string>)

  /** The state after `handleSubmit`, what it sent, the cookie strings it
      wrote, the `localStorage` it left, and whether it moves on to the
      home page. */
  datatype Submission = Submission(form: Form, sent: Credentials, written: seq<string>,
                                   local: map<string, string>, redirecting: bool)

  /** The options of both token cookies: an expiry, path `/`, SameSite
      Strict. */
  function TokenOptions(expiresAt: int): Cookies.CookieOptions {
    Cookies.CookieOptions(Some(expiresAt), Some("/"), None, None, Some(Cookies.SameSiteStrict))
  }

  /** The cookie string written for a token. */
  lemma TokenCookieText(name: string, value: string, expiresAt: int, enc: string -> string, utc: int -> string)
    ensures Cookies.SetCookie(name, value, TokenOptions(expiresAt), enc, utc)
            == enc(name) + "=" + enc(value) + "; expires=" + utc(expiresAt) + "; path=/; samesite=Strict"
  {
    var o := TokenOptions(expiresAt);
    var e, p, ss := Cookies.Expires(utc(expiresAt)), Cookies.Path("/"), Cookies.SameSitePolicy(Cookies.SameSiteStrict);
    assert Cookies.ExpiresPart(o, utc) == [e];
    assert Cookies.PathPart(o) == [p];
    assert Cookies.DomainPart(o) == [] && Cookies.SecurePart(o) == [];
    assert Cookies.SameSitePart(o) == [ss];
    assert Cookies.Attributes(o, utc) == [e] + ([p] + [ss]);
    Cookies.RenderAllCons(ss, []);
    Cookies.RenderAllCons(p, [ss]);
    Cookies.RenderAllCons(e, [p] + [ss]);
    assert Cookies.Render(ss) == "; samesite=Strict";
  }

  /** The two readings of `Date.now()` that `handleSubmit` takes, one for
      each token's expiry. Nothing relates them: the clock may move
      between them. */
  datatype Clock = Clock(accessMs: int, refreshMs: int)

  /** `handleSubmit` with the clock readings `now`, given the answer of
      the login request. The fields themselves are not trimmed in the
      state; only the credentials sent are. */
  function Submit(form: Form, outcome: Outcome, now: Clock, local: map<string, string>,
                  enc: string -> string, utc: int -> string): (r: Submission)
    ensures r.sent == Credentials(Text.Trim(form.email), Text.Trim(form.password))
    ensures !Text.HasEdgeSpace(r.sent.email) && !Text.HasEdgeSpace(r.sent.password)
    ensures r.form.email == form.email && r.form.password == form.password
    ensures r.form.warning == RemovedWarning <==> Text.HasEdgeSpace(form.email) || Text.HasEdgeSpace(form.password)
    ensures r.form.warning == RemovedWarning || r.form.warning == ""
    ensures outcome.Accepted? ==>
              && r.form.error == ""
              && r.redirecting
              && r.local == Cookies.ClearLocalStorageAuthData(local)
              && r.written == [
                   enc("accessToken") + "=" + enc(outcome.token) + "; expires=" + utc(now.accessMs + 60 * 60 * 1000)
                   + "; path=/; samesite=Strict",
                   enc("refreshToken") + "=" + enc(outcome.refreshToken) + "; expires="
                   + utc(now.refreshMs + 7 * 24 * 60 * 60 * 1000) + "; path=/; samesite=Strict"]
    ensures outcome.Rejected? ==>
              && r.form.error != ""
              && (outcome.message.Some? && outcome.message.value != "" ==> r.form.error == outcome.message.value)
              && (!(outcome.message.Some? && outcome.message.value != "") ==> r.form.error == DefaultError)
              && !r.redirecting && r.written == [] && r.local == local
  {
    var warning := if Text.HasEdgeSpace(form.email) || Text.HasEdgeSpace(form.password) then RemovedWarning else "";
    var sent := Credentials(Text.Trim(form.email), Text.Trim(form.password));
    match outcome
    case Accepted(token, refreshToken) =>
      var access := Cookies.SetCookie("accessToken", token, TokenOptions(now.accessMs + AccessLifetimeMs), enc, utc);
      var refresh := Cookies.SetCookie("refreshToken", refreshToken, TokenOptions(now.refreshMs + RefreshLifetimeMs), enc, utc);
      TokenCookieText("accessToken", token, now.accessMs + AccessLifetimeMs, enc, utc);
      TokenCookieText("refreshToken", refreshToken, now.refreshMs + RefreshLifetimeMs, enc, utc);
      Submission(form.(warning := warning, error := ""), sent, [access, refresh],
                 Cookies.ClearLocalStorageAuthData(local), true)
    case Rejected(message) =>
      var error := if message.Some? && message.value != "" then message.value else DefaultError;
      Submission(form.(warning := warning, error := error), sent, [], local, false)
  }

  lemma SubmitKeepsConsistent(form: Form, outcome: Outcome, now: Clock, local: map<string, string>,
                              enc: string -> string, utc: int -> string)
    ensures Consistent(Submit(form, outcome, now, local, enc, utc).form)
  {
  }

  /** Submitting what was sent once sends it again unchanged and without
      a warning: trimming is idempotent. */
  lemma ResubmitIsSilent(form: Form, outcome: Outcome, now: Clock, local: map<string, string>,
                         enc: string -> string, utc: int -> string)
    ensures var sent := Submit(form, outcome, now, local, enc, utc).sent;
            var again := Submit(form.(email := sent.email, password := sent.password), outcome, now, local, enc, utc);
            again.sent == sent && again.form.warning == ""
  {
    Text.TrimIdempotent(form.email);
    Text.TrimIdempotent(form.password);
  }

  /** White space typed in front of the email does not reach the server. */
  lemma LeadingSpaceNotSent(c: char, email: string, form: Form, outcome: Outcome, now: Clock,
                            local: map<string, string>, enc: string -> string, utc: int -> string)
    requires Text.IsSpace(c)
    ensures Submit(form.(email := [c] + email), outcome, now, local, enc, utc).sent
            == Submit(form.(email := email), outcome, now, local, enc, utc).sent
  {
    Text.TrimSkipsLeadingSpace(c, email);
  }

  /** The form starts consistent, and any sequence of edits keeps it so. */
  datatype Step = Type(field: Field, value: string) | Send(outcome: Outcome, now: Clock)

  function Run(form: Form, steps: seq<Step>, local: map<string, string>,
               enc: string -> string, utc: int -> string): Form
    decreases |steps|
  {
    if |steps| == 0 then form
    else
      var next := match steps[0]
        case Type(field, value) => InputChange(form, field, value)
        case Send(outcome, now) => Submit(form, outcome, now, local, enc, utc).form;
      Run(next, steps[1..], local, enc, utc)
  }

  lemma {:induction false} RunKeepsConsistent(form: Form, steps: seq<Step>, local: map<string, string>,
                                              enc: string -> string, utc: int -> string)
    requires Consistent(form)
    ensures Consistent(Run(form, steps, local, enc, utc))
    decreases |steps|
  {
    if |steps| > 0 {
      match steps[0]
      case Type(field, value) =>
        InputChangeKeepsConsistent(form, field, value);
        RunKeepsConsistent(InputChange(form, field, value), steps[1..], local, enc, utc);
      case Send(outcome, now) =>
        SubmitKeepsConsistent(form, outcome, now, local, enc, utc);
        RunKeepsConsistent(Submit(form, outcome, now, local, enc, utc).form, steps[1..], local, enc, utc);
    }
  }

  lemma AlwaysConsistent(steps: seq<Step>, local: map<string, string>, enc: string -> string, utc: int -> string)
    ensures Consistent(Run(Initial, steps, local, enc, utc))
  {
    RunKeepsConsistent(Initial, steps, local, enc, utc);
  }
}

=== FILE: ranking.dfy ===
/** A stable sort by a small natural-number key, written as a bucket sort:
    the elements of key 0 in their original order, then those of key 1,
    and so on up to a largest key `top`. This is what a stable
    `Array.prototype.sort` returns for the comparator
    `(a, b) => rank(a) - rank(b)`. */
module Ranking {
  import Seqs

  /** The test "has key `k`", as a filter predicate. */
  function RankIs<T>(rank: T -> nat, k: nat): T -> bool {
    x => rank(x) == k
  }

  /** The elements of key `k` and above, up to `top`: each key in turn, and
      within a key in their original order. */
  function Buckets<T(==,!new)>(s: seq<T>, rank: T -> nat, k: nat, top: nat): seq<T>
    decreases top + 1 - k
  {
    if k > top then [] else Seqs.Keep(s, RankIs(rank, k)) + Buckets(s, rank, k + 1, top)
  }

  predicate SortedBy<T>(s: seq<T>, rank: T -> nat) {
    forall i, j :: 0 <= i < j < |s| ==> rank(s[i]) <= rank(s[j])
  }

  /** No key of `s` is above `top`. */
  predicate KeysWithin<T>(s: seq<T>, rank: T -> nat, top: nat) {
    forall i :: 0 <= i < |s| ==> rank(s[i]) <= top
  }

  /** Everything kept by a filter on key `k` has key `k`. */
  lemma KeptHaveRank<T(!new)>(s: seq<T>, rank: T -> nat, k: nat)
    ensures forall i :: 0 <= i < |Seqs.Keep(s, RankIs(rank, k))| ==> rank(Seqs.Keep(s, RankIs(rank, k))[i]) == k
  {
    var a := Seqs.Keep(s, RankIs(rank, k));
    forall i | 0 <= i < |a|
      ensures rank(a[i]) == k
    {
      assert RankIs(rank, k)(a[i]);
    }
  }

  lemma {:induction false} BucketsRankAtLeast<T(!new)>(s: seq<T>, rank: T -> nat, k: nat, top: nat)
    ensures forall i :: 0 <= i < |Buckets(s, rank, k, top)| ==> rank(Buckets(s, rank, k, top)[i]) >= k
    decreases top + 1 - k
  {
    if k <= top {
      BucketsRankAtLeast(s, rank, k + 1, top);
      KeptHaveRank(s, rank, k);
      var a := Seqs.Keep(s, RankIs(rank, k));
      var b := Buckets(s, rank, k + 1, top);
      assert Buckets(s, rank, k, top) == a + b;
      forall i | 0 <= i < |a + b|
        ensures rank((a + b)[i]) >= k
      {
        if i < |a| {
          assert (a + b)[i] == a[i];
        } else {
          assert (a + b)[i] == b[i - |a|];
        }
      }
    }
  }

  /** A run of one key followed by a sorted run of keys no smaller is
      sorted. */
  lemma SortedConcat<T(!new)>(a: seq<T>, b: seq<T>, rank: T -> nat, k: nat)
    requires forall i :: 0 <= i < |a| ==> rank(a[i]) == k
    requires forall i :: 0 <= i < |b| ==> rank(b[i]) >= k
    requires SortedBy(b, rank)
    ensures SortedBy(a + b, rank)
  {
    var r := a + b;
    forall i, j | 0 <= i < j < |r|
      ensures rank(r[i]) <= rank(r[j])
    {
      if j < |a| {
        assert r[i] == a[i] && r[j] == a[j];
      } else if i < |a| {
        assert r[i] == a[i] && r[j] == b[j - |a|];
      } else {
        assert r[i] == b[i - |a|] && r[j] == b[j - |a|];
      }
    }
  }

  lemma {:induction false} BucketsSorted<T(!new)>(s: seq<T>, rank: T -> nat, k: nat, top: nat)
    ensures SortedBy(Buckets(s, rank, k, top), rank)
    decreases top + 1 - k
  {
    if k <= top {
      var a, b := Seqs.Keep(s, RankIs(rank, k)), Buckets(s, rank, k + 1, top);
      BucketsSorted(s, rank, k + 1, top);
      BucketsRankAtLeast(s, rank, k + 1, top);
      KeptHaveRank(s, rank, k);
      SortedConcat(a, b, rank, k);
      assert Buckets(s, rank, k, top) == a + b;
    }
  }

  /** The buckets from key `k` on hold every occurrence of an element whose
      key is between `k` and `top`, and nothing else. */
  lemma {:induction false} BucketsCount<T(!new)>(s: seq<T>, rank: T -> nat, k: nat, top: nat, x: T)
    ensures multiset(Buckets(s, rank, k, top))[x] == if k <= rank(x) <= top then multiset(s)[x] else 0
    decreases top + 1 - k
  {
    if k <= top {
      var a, b := Seqs.Keep(s, RankIs(rank, k)), Buckets(s, rank, k + 1, top);
      assert Buckets(s, rank, k, top) == a + b;
      assert multiset(a + b)[x] == multiset(a)[x] + multiset(b)[x];
      BucketsCount(s, rank, k + 1, top, x);
      Seqs.KeepMultiset(s, RankIs(rank, k));
      assert multiset(a)[x] == if rank(x) == k then multiset(s)[x] else 0;
    } else {
      assert Buckets(s, rank, k, top) == [];
    }
  }

  /** Filtering the buckets from key `k` on by key `j` gives the elements
      of key `j` in their original order when `j` is among them, and
      nothing otherwise. */
  lemma {:induction false} BucketsStable<T(!new)>(s: seq<T>, rank: T -> nat, k: nat, top: nat, j: nat)
    requires KeysWithin(s, rank, top)
    ensures Seqs.Keep(Buckets(s, rank, k, top), RankIs(rank, j)) == if k <= j then Seqs.Keep(s, RankIs(rank, j)) else []
    decreases top + 1 - k
  {
    if k > top {
      assert Buckets(s, rank, k, top) == [];
      if k <= j {
        NothingAboveTop(s, rank, top, j);
      }
    } else {
      BucketsStable(s, rank, k + 1, top, j);
      BucketsStableStep(s, rank, k, top, j);
    }
  }

  lemma BucketsStableStep<T(!new)>(s: seq<T>, rank: T -> nat, k: nat, top: nat, j: nat)
    requires k <= top
    requires Seqs.Keep(Buckets(s, rank, k + 1, top), RankIs(rank, j))
             == if k + 1 <= j then Seqs.Keep(s, RankIs(rank, j)) else []
    ensures Seqs.Keep(Buckets(s, rank, k, top), RankIs(rank, j)) == if k <= j then Seqs.Keep(s, RankIs(rank, j)) else []
  {
    var a := Seqs.Keep(s, RankIs(rank, k));
    var b := Buckets(s, rank, k + 1, top);
    assert Buckets(s, rank, k, top) == a + b;
    Seqs.KeepAppend(a, b, RankIs(rank, j));
    KeptHaveRank(s, rank, k);
    if j == k {
      Seqs.KeepEverything(a, RankIs(rank, k));
      LaterBucketsDropped(s, rank, k, top);
    } else {
      forall i | 0 <= i < |a|
        ensures !RankIs(rank, j)(a[i])
      {
        assert rank(a[i]) == k;
      }
      Seqs.KeepNone(a, RankIs(rank, j));
    }
  }

  lemma NothingAboveTop<T(!new)>(s: seq<T>, rank: T -> nat, top: nat, j: nat)
    requires KeysWithin(s, rank, top) && j > top
    ensures Seqs.Keep(s, RankIs(rank, j)) == []
  {
    forall i | 0 <= i < |s|
      ensures !RankIs(rank, j)(s[i])
    {
      assert rank(s[i]) <= top;
    }
    Seqs.KeepNone(s, RankIs(rank, j));
  }

  lemma LaterBucketsDropped<T(!new)>(s: seq<T>, rank: T -> nat, k: nat, top: nat)
    ensures Seqs.Keep(Buckets(s, rank, k + 1, top), RankIs(rank, k)) == []
  {
    var b := Buckets(s, rank, k + 1, top);
    BucketsRankAtLeast(s, rank, k + 1, top);
    forall i | 0 <= i < |b|
      ensures !RankIs(rank, k)(b[i])
    {
      assert rank(b[i]) >= k + 1;
    }
    Seqs.KeepNone(b, RankIs(rank, k));
  }

  /** The bucket sort is a stable sort: the same elements, keys ascending,
      and elements of equal key in their original order. */
  lemma StableSort<T(!new)>(s: seq<T>, rank: T -> nat, top: nat)
    requires KeysWithin(s, rank, top)
    ensures multiset(Buckets(s, rank, 0, top)) == multiset(s)
    ensures SortedBy(Buckets(s, rank, 0, top), rank)
    ensures forall k :: Seqs.Keep(Buckets(s, rank, 0, top), RankIs(rank, k)) == Seqs.Keep(s, RankIs(rank, k))
  {
    BucketsSorted(s, rank, 0, top);
    forall x
      ensures multiset(Buckets(s, rank, 0, top))[x] == multiset(s)[x]
    {
      BucketsCount(s, rank, 0, top, x);
      if x in s {
        var i :| 0 <= i < |s| && s[i] == x;
        assert rank(s[i]) <= top;
      }
    }
    assert multiset(Buckets(s, rank, 0, top)) == multiset(s);
    forall k: nat
      ensures Seqs.Keep(Buckets(s, rank, 0, top), RankIs(rank, k)) == Seqs.Keep(s, RankIs(rank, k))
    {
      BucketsStable(s, rank, 0, top, k);
    }
  }
}

=== FILE: seqs.dfy ===
/** Order-preserving filtering of sequences: the `Array.prototype.filter`
    the modelled code applies to device lists, relation lists and cookie
    jars. */
module Seqs {

  /** `r` can be obtained from `s` by deleting elements, without
      reordering the rest. */
  predicate IsSubsequence<T(==,!new)>(r: seq<T>, s: seq<T>)
    decreases |s|
  {
    if |r| == 0 then true
    else if |s| == 0 then false
    else if r[0] == s[0] then IsSubsequence(r[1..], s[1..])
    else IsSubsequence(r, s[1..])
  }

  /** `s.filter(p)`. */
  function Keep<T(==,!new)>(s: seq<T>, p: T -> bool): (r: seq<T>)
    ensures |r| <= |s|
    ensures IsSubsequence(r, s)
    ensures forall i :: 0 <= i < |r| ==> p(r[i]) && r[i] in s
    ensures forall i :: 0 <= i < |s| && p(s[i]) ==> s[i] in r
  {
    if |s| == 0 then []
    else
      var rest := Keep(s[1..], p);
      if p(s[0]) then
        assert forall i :: 0 <= i < |s| && p(s[i]) ==> s[i] in [s[0]] + rest by {
          forall i | 0 <= i < |s| && p(s[i])
            ensures s[i] in [s[0]] + rest
          {
            if i > 0 {
              assert s[i] == s[1..][i - 1];
            }
          }
        }
        [s[0]] + rest
      else
        assert forall i :: 0 <= i < |s| && p(s[i]) ==> s[i] in rest by {
          forall i | 0 <= i < |s| && p(s[i])
            ensures s[i] in rest
          {
            assert i > 0;
            assert s[i] == s[1..][i - 1];
          }
        }
        rest
  }

  /** Filtering keeps every accepted occurrence and drops every other. */
  lemma {:induction false} KeepMultiset<T(!new)>(s: seq<T>, p: T -> bool)
    ensures forall x :: multiset(Keep(s, p))[x] == if p(x) then multiset(s)[x] else 0
    decreases |s|
  {
    if |s| > 0 {
      KeepMultiset(s[1..], p);
      assert s == [s[0]] + s[1..];
      assert forall x :: multiset(s)[x] == multiset{s[0]}[x] + multiset(s[1..])[x];
    }
  }

  /** Filtering the concatenation of two sequences filters each part. */
  lemma {:induction false} KeepAppend<T(!new)>(a: seq<T>, b: seq<T>, p: T -> bool)
    ensures Keep(a + b, p) == Keep(a, p) + Keep(b, p)
    decreases |a|
  {
    if |a| > 0 {
      assert (a + b)[1..] == a[1..] + b;
      KeepAppend(a[1..], b, p);
    } else {
      assert a + b == b;
    }
  }

  /** Filtering by two predicates that agree everywhere gives the same
      result. */
  lemma {:induction false} KeepCongruent<T(!new)>(s: seq<T>, p: T -> bool, q: T -> bool)
    requires forall x :: p(x) == q(x)
    ensures Keep(s, p) == Keep(s, q)
    decreases |s|
  {
    if |s| > 0 {
      KeepCongruent(s[1..], p, q);
    }
  }

  /** Filtering by a predicate every element meets keeps everything. */
  lemma {:induction false} KeepEverything<T(!new)>(s: seq<T>, p: T -> bool)
    requires forall i :: 0 <= i < |s| ==> p(s[i])
    ensures Keep(s, p) == s
    decreases |s|
  {
    if |s| > 0 {
      assert p(s[0]);
      KeepEverything(s[1..], p);
      assert [s[0]] + s[1..] == s;
    }
  }

  /** Filtering twice is filtering once by the conjunction. */
  lemma {:induction false} KeepKeep<T(!new)>(s: seq<T>, p: T -> bool, q: T -> bool, both: T -> bool)
    requires forall x :: both(x) == (p(x) && q(x))
    ensures Keep(Keep(s, p), q) == Keep(s, both)
    decreases |s|
  {
    if |s| > 0 {
      KeepKeep(s[1..], p, q, both);
      if p(s[0]) {
        assert Keep(s, p) == [s[0]] + Keep(s[1..], p);
        assert ([s[0]] + Keep(s[1..], p))[1..] == Keep(s[1..], p);
      }
    }
  }

  /** Extending the larger sequence, or both sequences, keeps a
      subsequence. */
  lemma {:induction false} SubsequenceExtend<T(!new)>(r: seq<T>, s: seq<T>, x: T)
    requires IsSubsequence(r, s)
    ensures IsSubsequence(r, s + [x])
    decreases |s|
  {
    if |r| > 0 && |s| > 0 {
      assert (s + [x])[1..] == s[1..] + [x];
      if r[0] == s[0] {
        SubsequenceExtend(r[1..], s[1..], x);
      } else {
        SubsequenceExtend(r, s[1..], x);
      }
    }
  }

  lemma {:induction false} SubsequenceAppend<T(!new)>(r: seq<T>, s: seq<T>, x: T)
    requires IsSubsequence(r, s)
    ensures IsSubsequence(r + [x], s + [x])
    decreases |s|
  {
    if |r| == 0 {
      assert r + [x] == [x];
      SubsequenceLast(s, x);
    } else {
      assert (s + [x])[1..] == s[1..] + [x];
      assert (r + [x])[1..] == r[1..] + [x];
      if r[0] == s[0] {
        SubsequenceAppend(r[1..], s[1..], x);
      } else {
        SubsequenceAppend(r, s[1..], x);
      }
    }
  }

  lemma {:induction false} SubsequenceLast<T(!new)>(s: seq<T>, x: T)
    ensures IsSubsequence([x], s + [x])
    decreases |s|
  {
    if |s| > 0 && s[0] != x {
      assert (s + [x])[1..] == s[1..] + [x];
      SubsequenceLast(s[1..], x);
    }
  }

  /** Filtering by a predicate no element meets leaves nothing. */
  lemma KeepNone<T(!new)>(s: seq<T>, p: T -> bool)
    requires forall i :: 0 <= i < |s| ==> !p(s[i])
    ensures Keep(s, p) == []
  {
  }
}

=== FILE: text.dfy ===
/** The absent-or-present value used wherever the source returns `null`,
    `undefined` or an optional field. */
module Optional {

  datatype Option<+T> = None | Some(value: T) {

    /** The value, or `default` when there is none (the source's `x ?? d`). */
    function GetOr(default: T): T {
      match this
      case Some(v) => v
      case None => default
    }
  }

  /** The result of a call that either returns a value or throws. */
  datatype Outcome<+T> = Returned(value: T) | Threw
}

/** The string primitives of the JavaScript runtime that the modelled code
    relies on, written out over `seq<char>`. */
module Text {

  /** The characters that `\s` in a regular expression and
      `String.prototype.trim` treat as white space: the ECMAScript
      WhiteSpace and LineTerminator code points. */
  predicate IsSpace(c: char) {
    || c == '\t' || c == '\n' || c == '\U{000B}' || c == '\U{000C}' || c == '\r'
    || c == ' ' || c == '\U{00A0}' || c == '\U{1680}'
    || ('\U{2000}' <= c <= '\U{200A}')
    || c == '\U{2028}' || c == '\U{2029}' || c == '\U{202F}' || c == '\U{205F}'
    || c == '\U{3000}' || c == '\U{FEFF}'
  }

  predicate AllSpace(s: string) {
    forall k :: 0 <= k < |s| ==> IsSpace(s[k])
  }

  /** `/^\s|\s$/.test(s)`: the first or the last character is white space. */
  predicate HasEdgeSpace(s: string) {
    |s| > 0 && (IsSpace(s[0]) || IsSpace(s[|s| - 1]))
  }

  /** `s.startsWith(prefix)`. */
  predicate StartsWith(s: string, prefix: string) {
    |prefix| <= |s| && s[..|prefix|] == prefix
  }

  /** `part` occurs in `s` starting at index `i`. */
  predicate OccursAt(s: string, part: string, i: int) {
    0 <= i <= |s| - |part| && s[i..i + |part|] == part
  }

  /** `s.includes(part)`: `part` occurs somewhere in `s`. */
  function Contains(s: string, part: string): (b: bool)
    ensures b <==> exists i :: OccursAt(s, part, i)
    decreases |s|
  {
    if StartsWith(s, part) then
      assert OccursAt(s, part, 0);
      true
    else if |s| == 0 then
      assert forall i :: !OccursAt(s, part, i);
      false
    else
      var b := Contains(s[1..], part);
      assert b ==> exists i :: OccursAt(s, part, i) by {
        if b {
          var i :| OccursAt(s[1..], part, i);
          assert s[i + 1..i + 1 + |part|] == s[1..][i..i + |part|];
          assert OccursAt(s, part, i + 1);
        }
      }
      assert (exists i :: OccursAt(s, part, i)) ==> b by {
        if exists i :: OccursAt(s, part, i) {
          var i :| OccursAt(s, part, i);
          assert i != 0;
          assert s[1..][i - 1..i - 1 + |part|] == s[i..i + |part|];
          assert OccursAt(s[1..], part, i - 1);
        }
      }
      b
  }

  /** `s.split(sep)` with a one-character separator: the maximal pieces
      between separators, always at least one (an empty string splits
      into `[""]`). */
  function Split(s: string, sep: char): (parts: seq<string>)
    ensures |parts| >= 1
    ensures forall i :: 0 <= i < |parts| ==> sep !in parts[i]
  {
    if |s| == 0 then [""]
    else
      var rest := Split(s[1..], sep);
      if s[0] == sep then [""] + rest
      else [[s[0]] + rest[0]] + rest[1..]
  }

  /** `parts.join(sep)` with a one-character separator. */
  function Join(parts: seq<string>, sep: char): string {
    if |parts| == 0 then ""
    else if |parts| == 1 then parts[0]
    else parts[0] + [sep] + Join(parts[1..], sep)
  }

  lemma {:induction false} SplitNoSeparator(s: string, sep: char)
    requires sep !in s
    ensures Split(s, sep) == [s]
    decreases |s|
  {
    if |s| > 0 {
      SplitNoSeparator(s[1..], sep);
      assert [s[0]] + s[1..] == s;
    }
  }

  lemma {:induction false} SplitPrefix(a: string, sep: char, b: string)
    requires sep !in a
    ensures Split(a + [sep] + b, sep) == [a] + Split(b, sep)
    decreases |a|
  {
    if |a| == 0 {
      assert a + [sep] + b == [sep] + b;
      assert ([sep] + b)[1..] == b;
    } else {
      assert (a + [sep] + b)[1..] == a[1..] + [sep] + b;
      SplitPrefix(a[1..], sep, b);
      assert [a[0]] + a[1..] == a;
    }
  }

  /** Two leading pieces free of the separator split off in turn. */
  lemma SplitTwoPrefixes(a: string, b: string, sep: char, rest: string)
    requires sep !in a && sep !in b
    ensures Split(a + [sep] + b + [sep] + rest, sep) == [a, b] + Split(rest, sep)
  {
    assert a + [sep] + b + [sep] + rest == a + [sep] + (b + [sep] + rest);
    SplitPrefix(a, sep, b + [sep] + rest);
    SplitPrefix(b, sep, rest);
  }

  /** Three leading pieces free of the separator split off in turn. */
  lemma SplitThreePrefixes(a: string, b: string, c: string, sep: char, rest: string)
    requires sep !in a && sep !in b && sep !in c
    ensures Split(a + [sep] + b + [sep] + c + [sep] + rest, sep) == [a, b, c] + Split(rest, sep)
  {
    assert a + [sep] + b + [sep] + c + [sep] + rest == a + [sep] + (b + [sep] + c + [sep] + rest);
    SplitPrefix(a, sep, b + [sep] + c + [sep] + rest);
    SplitTwoPrefixes(b, c, sep, rest);
  }

  /** Splitting a joined list gives the list back when no piece contains
      the separator. */
  lemma {:induction false} SplitJoin(parts: seq<string>, sep: char)
    requires |parts| >= 1
    requires forall i :: 0 <= i < |parts| ==> sep !in parts[i]
    ensures Split(Join(parts, sep), sep) == parts
    decreases |parts|
  {
    if |parts| == 1 {
      SplitNoSeparator(parts[0], sep);
    } else {
      SplitJoin(parts[1..], sep);
      SplitPrefix(parts[0], sep, Join(parts[1..], sep));
      assert [parts[0]] + parts[1..] == parts;
    }
  }

  /** Joining the pieces of a split gives the string back, for every string. */
  lemma {:induction false} JoinSplit(s: string, sep: char)
    ensures Join(Split(s, sep), sep) == s
    decreases |s|
  {
    if |s| > 0 {
      JoinSplit(s[1..], sep);
      var rest := Split(s[1..], sep);
      if s[0] == sep {
        assert ([""] + rest)[1..] == rest;
        assert [s[0]] + s[1..] == s;
      } else {
        var parts := [[s[0]] + rest[0]] + rest[1..];
        if |rest| == 1 {
          assert [s[0]] + s[1..] == s;
        } else {
          assert parts[1..] == rest[1..];
          assert Join(rest, sep) == rest[0] + [sep] + Join(rest[1..], sep);
          assert [s[0]] + s[1..] == s;
        }
      }
    }
  }

  /** Number of white-space characters at the start of `s`. */
  function LeadingSpaces(s: string): (n: nat)
    ensures n <= |s|
    ensures AllSpace(s[..n])
    ensures n < |s| ==> !IsSpace(s[n])
  {
    if |s| == 0 || !IsSpace(s[0]) then 0
    else
      var n := 1 + LeadingSpaces(s[1..]);
      assert forall k :: 1 <= k < n ==> s[k] == s[1..][k - 1];
      n
  }

  /** Number of white-space characters at the end of `s`. */
  function TrailingSpaces(s: string): (n: nat)
    ensures n <= |s|
    ensures AllSpace(s[|s| - n..])
    ensures n < |s| ==> !IsSpace(s[|s| - 1 - n])
  {
    if |s| == 0 || !IsSpace(s[|s| - 1]) then 0
    else
      var n := 1 + TrailingSpaces(s[..|s| - 1]);
      assert forall k :: |s| - n <= k < |s| - 1 ==> s[k] == s[..|s| - 1][k];
      n
  }

  /** `s.trim()`, which is also what `s.replace(/^\s+|\s+$/g, '')` computes:
      the slice left after removing the white space at both ends. */
  function Trim(s: string): (r: string)
    ensures !HasEdgeSpace(r)
    ensures |r| <= |s|
  {
    var a := LeadingSpaces(s);
    var rest := s[a..];
    var b := TrailingSpaces(rest);
    var r := rest[..|rest| - b];
    assert |r| > 0 ==> r[0] == s[a] && r[|r| - 1] == rest[|rest| - 1 - b];
    r
  }

  /** Trimming removes white space at the ends and nothing else: the result
      is a contiguous slice of the input, and what lies before and after it
      is all white space. */
  lemma TrimKeepsInterior(s: string)
    ensures exists i :: (0 <= i <= |s| - |Trim(s)| && s[i..i + |Trim(s)|] == Trim(s)
                         && AllSpace(s[..i]) && AllSpace(s[i + |Trim(s)|..]))
  {
    var a := LeadingSpaces(s);
    var rest := s[a..];
    var b := TrailingSpaces(rest);
    var r := rest[..|rest| - b];
    assert r == Trim(s);
    assert s[a..a + |r|] == r;
    assert s[a + |r|..] == rest[|rest| - b..];
  }

  /** A string without white space at either end is its own trim, and only
      such a string is. */
  lemma TrimFixedIff(s: string)
    ensures Trim(s) == s <==> !HasEdgeSpace(s)
  {
    if !HasEdgeSpace(s) {
      var a := LeadingSpaces(s);
      assert a == 0;
      assert s[a..] == s;
      var b := TrailingSpaces(s);
      assert b == 0;
    }
  }

  lemma TrimIdempotent(s: string)
    ensures Trim(Trim(s)) == Trim(s)
  {
    TrimFixedIff(Trim(s));
  }

  /** White space in front of a string does not survive trimming. */
  lemma TrimSkipsLeadingSpace(c: char, s: string)
    requires IsSpace(c)
    ensures Trim([c] + s) == Trim(s)
  {
    assert ([c] + s)[1..] == s;
    assert LeadingSpaces([c] + s) == 1 + LeadingSpaces(s);
    assert ([c] + s)[1 + LeadingSpaces(s)..] == s[LeadingSpaces(s)..];
  }

  function DigitChar(d: nat): char
    requires d < 10
  {
    "0123456789"[d]
  }

  function DigitValue(c: char): int {
    c as int - '0' as int
  }

  predicate IsDigit(c: char) {
    '0' <= c <= '9'
  }

  /** The decimal numeral JavaScript prints for a non-negative integer. */
  function NatToString(n: nat): (s: string)
    ensures |s| >= 1
    ensures forall k :: 0 <= k < |s| ==> IsDigit(s[k])
    ensures |s| > 1 ==> s[0] != '0'
  {
    if n < 10 then [DigitChar(n)]
    else NatToString(n / 10) + [DigitChar(n % 10)]
  }

  /** The decimal numeral JavaScript prints for an integer (a leading `-`
      for negative ones). */
  function IntToString(n: int): (s: string)
    ensures |s| >= 1
  {
    if n < 0 then "-" + NatToString(-n) else NatToString(n)
  }

  /** The value of a string of decimal digits. */
  function DigitsValue(s: string): int {
    if |s| == 0 then 0
    else 10 * DigitsValue(s[..|s| - 1]) + DigitValue(s[|s| - 1])
  }

  /** Reading back a printed numeral gives the number. */
  lemma {:induction false} NatToStringRoundTrip(n: nat)
    ensures DigitsValue(NatToString(n)) == n
  {
    var s := NatToString(n);
    DigitRoundTrip(n % 10);
    if n >= 10 {
      NatToStringRoundTrip(n / 10);
      assert s[..|s| - 1] == NatToString(n / 10);
      assert s[|s| - 1] == DigitChar(n % 10);
    } else {
      assert s[..|s| - 1] == [];
    }
  }

  lemma DigitRoundTrip(d: nat)
    requires d < 10
    ensures DigitValue(DigitChar(d)) == d
  {
    var digits := "0123456789";
    assert digits[d] as int == '0' as int + d;
  }
}

=== FILE: websocket.dfy ===
/** The subscription registry of the telemetry socket client in
    `src/services/websocketService.ts`, as a state record with pure
    transitions. The socket, its timers and the heartbeat are not modelled:
    only their effect on the record, and the commands the client would
    send, are. */
module Subscriptions {
  import opened Optional
  import Text

  /** A subscriber; two callbacks are the same exactly when their ids are. */
  datatype Callback = Callback(id: nat)

  datatype EntityType = Device | Asset | EntityView

  function TypeName(t: EntityType): string {
    match t
    case Device => "DEVICE"
    case Asset => "ASSET"
    case EntityView => "ENTITY_VIEW"
  }

  datatype Config = Config(reconnectIntervalMs: nat, maxReconnectAttempts: nat, heartbeatIntervalMs: nat)

  const DefaultConfig := Config(5000, 10, 30000)

  /** The fields of the client object: `isConnected`, whether `ws` is set,
      `subscriptions`, the last command id issued and the reconnect
      counter. */
  datatype Client = Client(
    connected: bool,
    socket: bool,
    subs: map<string, set<Callback>>,
    cmdId: nat,
    reconnectAttempts: nat,
    config: Config)

  function NewClient(config: Config): Client {
    Client(false, false, map[], 0, 0, config)
  }

  /** The commands the client serialises onto the socket. The entity type
      is a string because `unsubscribe` sends whatever it parsed. */
  datatype Command =
    | LatestTelemetry(cmdId: nat, keys: string, unsubscribe: bool)
    | AttributeSubscription(cmdId: nat, entityType: string, entityId: string, unsubscribe: bool)

  /** A transition's new state and the commands it sent, in order. */
  datatype Step = Step(client: Client, sent: seq<Command>)

  /** `generateCmdId()`: the pre-incremented counter. */
  function GenerateCmdId(c: Client): (r: (Client, nat))
    ensures r.1 == c.cmdId + 1 && r.1 == r.0.cmdId
    ensures r.0.(cmdId := c.cmdId) == c
  {
    var next := c.cmdId + 1;
    (c.(cmdId := next), next)
  }

  /** Fresh clients issue 1 first. */
  lemma FirstIdIsOne(config: Config)
    ensures GenerateCmdId(NewClient(config)).1 == 1
  {
  }

  /** `sendCommand(command)`: sent only with a socket and while connected. */
  function Send(c: Client, cmd: Command): (sent: seq<Command>)
    ensures sent == [cmd] <==> c.socket && c.connected
    ensures sent == [] <==> !(c.socket && c.connected)
  {
    if !c.socket || !c.connected then [] else [cmd]
  }

  /** The callbacks registered under `id`, none if the key is absent. */
  function Registered(subs: map<string, set<Callback>>, id: string): set<Callback> {
    if id in subs then subs[id] else {}
  }

  /** Create the entry if missing, then add the callback to it. */
  function AddCallback(subs: map<string, set<Callback>>, id: string, cb: Callback): (r: map<string, set<Callback>>)
    ensures r.Keys == subs.Keys + {id}
    ensures r[id] == Registered(subs, id) + {cb}
    ensures forall k :: k in subs && k != id ==> r[k] == subs[k]
  {
    var existing := if id !in subs then subs[id := {}] else subs;
    existing[id := existing[id] + {cb}]
  }

  /** Adding a callback that is already registered changes nothing. */
  lemma AddCallbackIdempotent(subs: map<string, set<Callback>>, id: string, cb: Callback)
    ensures AddCallback(AddCallback(subs, id, cb), id, cb) == AddCallback(subs, id, cb)
  {
    var once := AddCallback(subs, id, cb);
    var twice := AddCallback(once, id, cb);
    assert twice.Keys == once.Keys;
    forall k | k in once
      ensures twice[k] == once[k]
    {
    }
  }

  /** The subscription id of a telemetry subscription. */
  function TelemetryKey(entityId: string, keys: seq<string>): string {
    "telemetry_" + entityId + "_" + Text.Join(keys, '_')
  }

  /** The subscription id of an attribute subscription. */
  function AttributesKey(t: EntityType, entityId: string): string {
    "attributes_" + TypeName(t) + "_" + entityId
  }

  /** The result of a subscribe call: it throws when not connected. */
  datatype Subscribed =
    | NotConnected
    | Subscribed(client: Client, id: string, sent: seq<Command>)

  /** `subscribeToTelemetry(entityId, keys, callback)`. */
  function SubscribeToTelemetry(c: Client, entityId: string, keys: seq<string>, cb: Callback): (r: Subscribed)
    ensures r.NotConnected? <==> !(c.connected && c.socket)
    ensures r.Subscribed? ==>
              && r.id == TelemetryKey(entityId, keys)
              && r.client.subs == AddCallback(c.subs, r.id, cb)
              && r.client == c.(subs := r.client.subs, cmdId := c.cmdId + 1)
              && r.sent == [LatestTelemetry(c.cmdId + 1, Text.Join(keys, ','), false)]
  {
    if !c.connected || !c.socket then NotConnected
    else
      var id := TelemetryKey(entityId, keys);
      var (next, cmdId) := GenerateCmdId(c);
      var registered := next.(subs := AddCallback(next.subs, id, cb));
      Subscribed(registered, id, Send(registered, LatestTelemetry(cmdId, Text.Join(keys, ','), false)))
  }

  /** `subscribeToAttributes(entityType, entityId, callback)`. */
  function SubscribeToAttributes(c: Client, t: EntityType, entityId: string, cb: Callback): (r: Subscribed)
    ensures r.NotConnected? <==> !(c.connected && c.socket)
    ensures r.Subscribed? ==>
              && r.id == AttributesKey(t, entityId)
              && r.client.subs == AddCallback(c.subs, r.id, cb)
              && r.client == c.(subs := r.client.subs, cmdId := c.cmdId + 1)
              && r.sent == [AttributeSubscription(c.cmdId + 1, TypeName(t), entityId, false)]
  {
    if !c.connected || !c.socket then NotConnected
    else
      var id := AttributesKey(t, entityId);
      var (next, cmdId) := GenerateCmdId(c);
      var registered := next.(subs := AddCallback(next.subs, id, cb));
      Subscribed(registered, id, Send(registered, AttributeSubscription(cmdId, TypeName(t), entityId, false)))
  }

  /** Subscribing the same callback twice registers it once and issues two
      commands. */
  lemma ResubscribeIsIdempotent(c: Client, entityId: string, keys: seq<string>, cb: Callback)
    requires c.connected && c.socket
    ensures var first := SubscribeToTelemetry(c, entityId, keys, cb);
            var second := SubscribeToTelemetry(first.client, entityId, keys, cb);
            second.Subscribed? && second.client.subs == first.client.subs
            && second.client.cmdId == c.cmdId + 2
  {
    AddCallbackIdempotent(c.subs, TelemetryKey(entityId, keys), cb);
  }

  /** What an unsubscribe command names: the telemetry keys, or an entity. */
  datatype Target =
    | TelemetryTarget(keys: string)
    | AttributeTarget(entityType: string, entityId: string)

  /** The unsubscribe command for a target under a command id. */
  function UnsubscribeCommand(target: Target, cmdId: nat): Command {
    match target
    case TelemetryTarget(keys) => LatestTelemetry(cmdId, keys, true)
    case AttributeTarget(entityType, entityId) => AttributeSubscription(cmdId, entityType, entityId, true)
  }

  /** A reading of a subscription id (given also as its pieces split on
      `_`) into what to unsubscribe from; `None` for an unknown kind. */
  type TargetParser = (string, seq<string>) -> Option<Target>

  /** The shape shared by both readings of `unsubscribe`: do nothing when
      disconnected or when the id is unknown; otherwise drop the entry, and
      when the id has at least three `_`-pieces issue a command id and send
      the command for whatever `parse` reads from the id. */
  function Retract(c: Client, id: string, parse: TargetParser): (r: Step)
    ensures !(c.connected && c.socket) || id !in c.subs ==> r == Step(c, [])
    ensures c.connected && c.socket && id in c.subs ==>
              && r.client.subs == c.subs - {id}
              && id !in r.client.subs
              && (forall k :: k in c.subs && k != id ==> k in r.client.subs && r.client.subs[k] == c.subs[k])
              && r.client.(cmdId := c.cmdId, subs := c.subs) == c
              && (r.client.cmdId == c.cmdId + 1 <==> |Text.Split(id, '_')| >= 3)
              && (r.client.cmdId == c.cmdId + 1 || r.client.cmdId == c.cmdId)
              && (r.sent != [] <==> r.client.cmdId == c.cmdId + 1 && parse(id, Text.Split(id, '_')).Some?)
              && (r.sent != [] ==> r.sent == [UnsubscribeCommand(parse(id, Text.Split(id, '_')).value, r.client.cmdId)])
  {
    if !c.connected || !c.socket then Step(c, [])
    else if id !in c.subs then Step(c, [])
    else
      var removed := c.(subs := c.subs - {id});
      var parts := Text.Split(id, '_');
      if |parts| < 3 then Step(removed, [])
      else
        var (next, cmdId) := GenerateCmdId(removed);
        match parse(id, parts)
        case None => Step(next, [])
        case Some(target) => Step(next, Send(next, UnsubscribeCommand(target, cmdId)))
  }

  /** The target `unsubscribe` reads as written: telemetry sends the
      pieces from index 3 on, attributes sends pieces 1 and 2 as type and
      id, and any other prefix sends nothing. */
  function AsWrittenTarget(id: string, parts: seq<string>): Option<Target> {
    if |parts| < 3 then None
    else if parts[0] == "telemetry" then Some(TelemetryTarget(Text.Join(parts[3..], ',')))
    else if parts[0] == "attributes" then Some(AttributeTarget(parts[1], parts[2]))
    else None
  }

  /** `unsubscribe(subscriptionId)` as written. */
  function Unsubscribe(c: Client, id: string): (r: Step)
    ensures !(c.connected && c.socket) || id !in c.subs ==> r == Step(c, [])
    ensures c.connected && c.socket && id in c.subs ==>
              && r.client.subs == c.subs - {id}
              && (forall k :: k in c.subs && k != id ==> k in r.client.subs && r.client.subs[k] == c.subs[k])
              && (r.client.cmdId == c.cmdId + 1 <==> |Text.Split(id, '_')| >= 3)
  {
    Retract(c, id, AsWrittenTarget)
  }

  const AttributesPrefix := "attributes_"

  /** The entity type and id at the front of an attribute subscription id
      with its `attributes_` prefix removed, matched on the known type
      names rather than on `_`. */
  function ParseEntity(rest: string): Option<(EntityType, string)> {
    if Text.StartsWith(rest, TypeName(Device) + "_") then Some((Device, rest[|TypeName(Device)| + 1..]))
    else if Text.StartsWith(rest, TypeName(Asset) + "_") then Some((Asset, rest[|TypeName(Asset)| + 1..]))
    else if Text.StartsWith(rest, TypeName(EntityView) + "_") then Some((EntityView, rest[|TypeName(EntityView)| + 1..]))
    else None
  }

  lemma ParseEntityRoundTrip(t: EntityType, entityId: string)
    ensures ParseEntity(TypeName(t) + "_" + entityId) == Some((t, entityId))
  {
    var s := TypeName(t) + "_" + entityId;
    assert s[..|TypeName(t)| + 1] == TypeName(t) + "_";
    assert s[|TypeName(t)| + 1..] == entityId;
    assert s[0] == TypeName(t)[0];
    if t != Device {
      NotPrefixByFirst(s, TypeName(Device) + "_");
    }
    if t == EntityView {
      NotPrefixByFirst(s, TypeName(Asset) + "_");
    }
  }

  lemma NotPrefixByFirst(s: string, prefix: string)
    requires |s| > 0 && |prefix| > 0 && s[0] != prefix[0]
    ensures !Text.StartsWith(s, prefix)
  {
  }

  /** The target `unsubscribe` evidently means to read: the telemetry
      keys from index 2 on (the same pieces that were joined with `_` on
      subscribe), and the entity type read by its known name, so that
      `ENTITY_VIEW` and ids containing `_` survive. */
  function IntendedTarget(id: string, parts: seq<string>): Option<Target> {
    if |parts| < 3 then None
    else if parts[0] == "telemetry" then Some(TelemetryTarget(Text.Join(parts[2..], ',')))
    else if parts[0] == "attributes" && Text.StartsWith(id, AttributesPrefix) then
      match ParseEntity(id[|AttributesPrefix|..])
      case Some((t, entityId)) => Some(AttributeTarget(TypeName(t), entityId))
      case None => None
    else None
  }

  /** `unsubscribe(subscriptionId)` with the key parsing corrected. */
  function UnsubscribeIntended(c: Client, id: string): (r: Step)
    ensures !(c.connected && c.socket) || id !in c.subs ==> r == Step(c, [])
    ensures c.connected && c.socket && id in c.subs ==>
              && r.client.subs == c.subs - {id}
              && (forall k :: k in c.subs && k != id ==> k in r.client.subs && r.client.subs[k] == c.subs[k])
              && (r.client.cmdId == c.cmdId + 1 <==> |Text.Split(id, '_')| >= 3)
  {
    Retract(c, id, IntendedTarget)
  }

  /** A telemetry id splits back into its pieces when neither the entity
      id nor any key contains `_`; with no keys there is one empty piece. */
  lemma TelemetryKeyParts(entityId: string, keys: seq<string>)
    requires '_' !in entityId
    requires forall i :: 0 <= i < |keys| ==> '_' !in keys[i]
    ensures Text.Split(TelemetryKey(entityId, keys), '_')
            == ["telemetry", entityId] + (if |keys| == 0 then [""] else keys)
  {
    var tail := Text.Join(keys, '_');
    assert TelemetryKey(entityId, keys) == "telemetry" + ['_'] + (entityId + ['_'] + tail);
    Text.SplitPrefix("telemetry", '_', entityId + ['_'] + tail);
    Text.SplitPrefix(entityId, '_', tail);
    if |keys| == 0 {
      assert tail == "";
    } else {
      Text.SplitJoin(keys, '_');
    }
  }

  /** An attribute id splits into the prefix, the type name's pieces and
      then the pieces of the entity id. */
  lemma AttributesKeyParts(t: EntityType, entityId: string)
    ensures t != EntityView ==>
              Text.Split(AttributesKey(t, entityId), '_') == ["attributes", TypeName(t)] + Text.Split(entityId, '_')
    ensures t == EntityView ==>
              Text.Split(AttributesKey(t, entityId), '_') == ["attributes", "ENTITY", "VIEW"] + Text.Split(entityId, '_')
  {
    if t == EntityView {
      EntityViewKeyParts(entityId);
    } else {
      PlainTypeKeyParts(t, entityId);
    }
  }

  lemma PlainTypeKeyParts(t: EntityType, entityId: string)
    requires t != EntityView
    ensures Text.Split(AttributesKey(t, entityId), '_') == ["attributes", TypeName(t)] + Text.Split(entityId, '_')
  {
    assert '_' !in TypeName(t);
    assert AttributesKey(t, entityId) == "attributes" + ['_'] + TypeName(t) + ['_'] + entityId;
    Text.SplitTwoPrefixes("attributes", TypeName(t), '_', entityId);
  }

  lemma EntityViewKeyParts(entityId: string)
    ensures Text.Split(AttributesKey(EntityView, entityId), '_') == ["attributes", "ENTITY", "VIEW"] + Text.Split(entityId, '_')
  {
    assert AttributesKey(EntityView, entityId) == "attributes" + ['_'] + "ENTITY" + ['_'] + "VIEW" + ['_'] + entityId;
    Text.SplitThreePrefixes("attributes", "ENTITY", "VIEW", '_', entityId);
  }

  /** As written, unsubscribing a telemetry subscription sends the keys
      without the first one. */
  lemma AsWrittenTelemetryDropsFirstKey(c: Client, entityId: string, keys: seq<string>, cb: Callback)
    requires c.connected && c.socket
    requires '_' !in entityId && |keys| >= 1
    requires forall i :: 0 <= i < |keys| ==> '_' !in keys[i]
    ensures var s := SubscribeToTelemetry(c, entityId, keys, cb);
            Unsubscribe(s.client, s.id).sent == [LatestTelemetry(c.cmdId + 2, Text.Join(keys[1..], ','), true)]
  {
    var s := SubscribeToTelemetry(c, entityId, keys, cb);
    TelemetryKeyParts(entityId, keys);
    var parts := Text.Split(s.id, '_');
    assert parts[3..] == keys[1..];
  }

  /** One concrete case: subscribing to temperature and humidity, then
      unsubscribing, asks the server to drop only humidity. */
  lemma AsWrittenTelemetryExample(c: Client, cb: Callback)
    requires c.connected && c.socket
    ensures var s := SubscribeToTelemetry(c, "d1", ["temperature", "humidity"], cb);
            && s.sent == [LatestTelemetry(c.cmdId + 1, "temperature,humidity", false)]
            && Unsubscribe(s.client, s.id).sent == [LatestTelemetry(c.cmdId + 2, "humidity", true)]
  {
    var keys := ["temperature", "humidity"];
    AsWrittenTelemetryDropsFirstKey(c, "d1", keys, cb);
    assert keys[1..] == ["humidity"];
    assert Text.Join(keys[1..], ',') == "humidity";
    assert Text.Join(keys, ',') == keys[0] + [','] + Text.Join(keys[1..], ',');
    assert "temperature" + [','] + "humidity" == "temperature,humidity";
  }

  /** As written, the attribute round trip holds only when neither the type
      name nor the entity id contains `_`. */
  lemma AsWrittenAttributesRoundTrip(c: Client, t: EntityType, entityId: string, cb: Callback)
    requires c.connected && c.socket
    requires t != EntityView && '_' !in entityId
    ensures var s := SubscribeToAttributes(c, t, entityId, cb);
            Unsubscribe(s.client, s.id).sent == [AttributeSubscription(c.cmdId + 2, TypeName(t), entityId, true)]
  {
    AttributesKeyParts(t, entityId);
    Text.SplitNoSeparator(entityId, '_');
  }

  /** As written, an `ENTITY_VIEW` subscription is unsubscribed as type
      `ENTITY` with entity id `VIEW`. */
  lemma AsWrittenEntityViewMisparsed(c: Client, entityId: string, cb: Callback)
    requires c.connected && c.socket
    ensures var s := SubscribeToAttributes(c, EntityView, entityId, cb);
            Unsubscribe(s.client, s.id).sent == [AttributeSubscription(c.cmdId + 2, "ENTITY", "VIEW", true)]
  {
    AttributesKeyParts(EntityView, entityId);
  }

  /** Corrected, unsubscribing a telemetry subscription sends the very keys
      that were subscribed. */
  lemma IntendedTelemetryRoundTrip(c: Client, entityId: string, keys: seq<string>, cb: Callback)
    requires c.connected && c.socket
    requires '_' !in entityId
    requires forall i :: 0 <= i < |keys| ==> '_' !in keys[i]
    ensures var s := SubscribeToTelemetry(c, entityId, keys, cb);
            UnsubscribeIntended(s.client, s.id).sent
            == [LatestTelemetry(c.cmdId + 2, s.sent[0].keys, true)]
  {
    var s := SubscribeToTelemetry(c, entityId, keys, cb);
    TelemetryKeyParts(entityId, keys);
    var parts := Text.Split(s.id, '_');
    if |keys| == 0 {
      assert parts[2..] == [""];
    } else {
      assert parts[2..] == keys;
    }
  }

  /** The corrected reading recovers the entity from an attribute id. */
  lemma IntendedTargetOfAttributesKey(t: EntityType, entityId: string)
    ensures var id := AttributesKey(t, entityId);
            && |Text.Split(id, '_')| >= 3
            && IntendedTarget(id, Text.Split(id, '_')) == Some(AttributeTarget(TypeName(t), entityId))
  {
    var id := AttributesKey(t, entityId);
    AttributesKeyParts(t, entityId);
    var parts := Text.Split(id, '_');
    assert parts[0] == "attributes";
    assert id[..|AttributesPrefix|] == AttributesPrefix;
    assert id[|AttributesPrefix|..] == TypeName(t) + "_" + entityId;
    ParseEntityRoundTrip(t, entityId);
  }

  /** Corrected, unsubscribing an attribute subscription names the same
      entity, for every entity type and every entity id. */
  lemma IntendedAttributesRoundTrip(c: Client, t: EntityType, entityId: string, cb: Callback)
    requires c.connected && c.socket
    ensures var s := SubscribeToAttributes(c, t, entityId, cb);
            UnsubscribeIntended(s.client, s.id).sent
            == [AttributeSubscription(c.cmdId + 2, TypeName(t), entityId, true)]
  {
    var s := SubscribeToAttributes(c, t, entityId, cb);
    IntendedTargetOfAttributesKey(t, entityId);
    assert s.id in s.client.subs;
  }

  /** The payload of a message, kept as opaque JSON text. */
  type Payload = string

  /** The fields of a parsed message that `handleMessage` reads. */
  datatype Message = Message(
    subscriptionId: Option<string>,
    error: Option<string>,
    data: Option<Payload>,
    latestValues: Option<Payload>)

  /** Who hears about a message: the subscribers of its id (given `data`),
      the message listeners (given `latestValues`), and the error
      listeners. */
  datatype Dispatch = Dispatch(
    subscribers: set<Callback>,
    data: Option<Payload>,
    listeners: Option<Payload>,
    error: Option<string>)

  const Nobody := Dispatch({}, None, None, None)

  /** `handleMessage(event)`; `None` is a message that failed to parse,
      which is dropped. The registry is read, never changed. */
  function HandleMessage(c: Client, msg: Option<Message>): (d: Dispatch)
    ensures msg.None? ==> d == Nobody
    ensures forall cb :: cb in d.subscribers <==>
              && msg.Some? && msg.value.subscriptionId.Some? && msg.value.subscriptionId.value != ""
              && msg.value.data.Some?
              && msg.value.subscriptionId.value in c.subs && cb in c.subs[msg.value.subscriptionId.value]
    ensures d.subscribers != {} ==> d.data == msg.value.data
    ensures d.error.Some? <==> msg.Some? && msg.value.error.Some? && msg.value.error.value != ""
    ensures d.listeners.Some? <==> msg.Some? && msg.value.latestValues.Some?
  {
    match msg
    case None => Nobody
    case Some(m) =>
      var hit := m.subscriptionId.Some? && m.subscriptionId.value != "" && m.data.Some?
                 && m.subscriptionId.value in c.subs;
      Dispatch(
        if hit then c.subs[m.subscriptionId.value] else {},
        if hit then m.data else None,
        m.latestValues,
        if m.error.Some? && m.error.value != "" then m.error else None)
  }

  /** A message carrying data for a subscribed id reaches its callback. */
  lemma DeliveredAfterSubscribe(c: Client, entityId: string, keys: seq<string>, cb: Callback, payload: Payload)
    requires c.connected && c.socket
    ensures var s := SubscribeToTelemetry(c, entityId, keys, cb);
            cb in HandleMessage(s.client, Some(Message(Some(s.id), None, Some(payload), None))).subscribers
  {
  }

  /** After unsubscribing, nothing addressed to that id reaches anybody,
      whichever reading of the key is used. */
  lemma SilentAfterUnsubscribe(c: Client, id: string, msg: Message)
    requires c.connected && c.socket
    requires msg.subscriptionId == Some(id)
    ensures HandleMessage(Unsubscribe(c, id).client, Some(msg)).subscribers == {}
    ensures HandleMessage(UnsubscribeIntended(c, id).client, Some(msg)).subscribers == {}
  {
  }

  /** `disconnect()`: drop the socket and every subscription. The reconnect
      counter and the command counter are kept. */
  function Disconnect(c: Client): (r: Client)
    ensures !r.connected && !r.socket && r.subs == map[]
    ensures r.cmdId == c.cmdId && r.reconnectAttempts == c.reconnectAttempts && r.config == c.config
  {
    c.(connected := false, socket := false, subs := map[])
  }

  lemma SilentAfterDisconnect(c: Client, msg: Option<Message>)
    ensures HandleMessage(Disconnect(c), msg).subscribers == {}
  {
  }

  /** After `disconnect()`, subscribing fails until a new connection opens. */
  lemma NoSubscribeAfterDisconnect(c: Client, entityId: string, keys: seq<string>, cb: Callback)
    ensures SubscribeToTelemetry(Disconnect(c), entityId, keys, cb).NotConnected?
  {
  }

  /** The outcome of `connect()`: rejected for want of a token, or a
      socket being opened. */
  datatype Connecting = TokenMissing | Opening(client: Client)

  /** `connect()` given the stored access token. A `getCookie` that
      throws has the same effect as a missing token: the promise rejects
      and no socket is made. */
  function Connect(c: Client, token: Option<string>): (r: Connecting)
    ensures r.TokenMissing? <==> token.None? || token.value == ""
    ensures r.Opening? ==> r.client == c.(socket := true)
  {
    if token.None? || token.value == "" then TokenMissing
    else Opening(c.(socket := true))
  }

  /** The socket's `onopen`: connected, and the reconnect counter reset. */
  function OnOpen(c: Client): (r: Client)
    ensures r.connected && r.reconnectAttempts == 0
    ensures r.(connected := c.connected, reconnectAttempts := c.reconnectAttempts) == c
  {
    c.(connected := true, reconnectAttempts := 0)
  }

  /** What `handleReconnection()` decided. */
  datatype Reconnect = GaveUp | Scheduled(delayMs: nat)

  /** `handleReconnection()`: give up (and report an error) once the
      attempts reach the maximum; otherwise count one more attempt and
      schedule a `connect()` after the reconnect interval. */
  function HandleReconnection(c: Client): (r: (Client, Reconnect))
    ensures r.1 == GaveUp <==> c.reconnectAttempts >= c.config.maxReconnectAttempts
    ensures r.1 == GaveUp ==> r.0 == c
    ensures r.1.Scheduled? ==> r.1.delayMs == c.config.reconnectIntervalMs
                               && r.0 == c.(reconnectAttempts := c.reconnectAttempts + 1)
    ensures c.reconnectAttempts <= c.config.maxReconnectAttempts ==>
              r.0.reconnectAttempts <= r.0.config.maxReconnectAttempts
  {
    if c.reconnectAttempts >= c.config.maxReconnectAttempts then (c, GaveUp)
    else (c.(reconnectAttempts := c.reconnectAttempts + 1), Scheduled(c.config.reconnectIntervalMs))
  }

  /** The socket's `onclose`: not connected, then try to reconnect. */
  function OnClose(c: Client): (r: (Client, Reconnect))
    ensures !r.0.connected
    ensures r.0.subs == c.subs && r.0.cmdId == c.cmdId
    ensures r.1 == GaveUp <==> c.reconnectAttempts >= c.config.maxReconnectAttempts
  {
    HandleReconnection(c.(connected := false))
  }

  /** `disconnect()` closes the socket without detaching its `onclose`
      handler, so when that socket reports the close, a reconnection is
      scheduled unless the attempts are used up. */
  lemma CloseAfterDisconnectReschedules(c: Client)
    requires c.reconnectAttempts < c.config.maxReconnectAttempts
    ensures OnClose(Disconnect(c)).1.Scheduled?
  {
  }

  /** Everything that can happen to the client. */
  datatype Event =
    | ConnectWith(token: Option<string>)
    | Opened
    | Closed
    | ReconnectFailed
    | Disconnected
    | SubscribeTelemetry(entityId: string, keys: seq<string>, cb: Callback)
    | SubscribeAttributes(entityType: EntityType, entityId: string, cb: Callback)
    | Unsubscribed(id: string)

  /** One event. A failed `connect()` inside the reconnect timer calls
      `handleReconnection()` again; unsubscribing reads the id with
      `parse`, `AsWrittenTarget` for the client as written and
      `IntendedTarget` for the corrected one. */
  function Apply(c: Client, e: Event, parse: TargetParser): Step {
    match e
    case ConnectWith(token) =>
      (match Connect(c, token)
       case TokenMissing => Step(c, [])
       case Opening(next) => Step(next, []))
    case Opened => Step(OnOpen(c), [])
    case Closed => Step(OnClose(c).0, [])
    case ReconnectFailed => Step(HandleReconnection(c).0, [])
    case Disconnected => Step(Disconnect(c), [])
    case SubscribeTelemetry(entityId, keys, cb) =>
      (match SubscribeToTelemetry(c, entityId, keys, cb)
       case NotConnected => Step(c, [])
       case Subscribed(next, _, sent) => Step(next, sent))
    case SubscribeAttributes(t, entityId, cb) =>
      (match SubscribeToAttributes(c, t, entityId, cb)
       case NotConnected => Step(c, [])
       case Subscribed(next, _, sent) => Step(next, sent))
    case Unsubscribed(id) => Retract(c, id, parse)
  }

  /** The client after a run of events, and every command sent on the way. */
  function Run(c: Client, events: seq<Event>, parse: TargetParser): Step
    decreases |events|
  {
    if |events| == 0 then Step(c, [])
    else
      var first := Apply(c, events[0], parse);
      var rest := Run(first.client, events[1..], parse);
      Step(rest.client, first.sent + rest.sent)
  }

  /** The command ids in `sent` strictly increase and lie in `(lo, hi]`. */
  predicate IssuedIn(sent: seq<Command>, lo: nat, hi: nat) {
    && (forall i :: 0 <= i < |sent| ==> lo < sent[i].cmdId <= hi)
    && (forall i, j :: 0 <= i < j < |sent| ==> sent[i].cmdId < sent[j].cmdId)
  }

  lemma IssuedInAppend(a: seq<Command>, b: seq<Command>, lo: nat, mid: nat, hi: nat)
    requires lo <= mid <= hi
    requires IssuedIn(a, lo, mid) && IssuedIn(b, mid, hi)
    ensures IssuedIn(a + b, lo, hi)
  {
    forall i, j | 0 <= i < j < |a + b|
      ensures (a + b)[i].cmdId < (a + b)[j].cmdId
    {
      if j >= |a| && i < |a| {
        assert (a + b)[j] == b[j - |a|];
      }
    }
  }

  /** One event keeps the configuration and the bound on attempts, never
      lowers the command counter, and sends at most one command, whose id
      is the one just issued. */
  lemma ApplyStep(c: Client, e: Event, parse: TargetParser)
    requires c.reconnectAttempts <= c.config.maxReconnectAttempts
    ensures var s := Apply(c, e, parse);
            && s.client.config == c.config
            && s.client.reconnectAttempts <= s.client.config.maxReconnectAttempts
            && c.cmdId <= s.client.cmdId
            && IssuedIn(s.sent, c.cmdId, s.client.cmdId)
  {
    match e
    case Unsubscribed(id) =>
      var s := Apply(c, e, parse);
      if c.connected && c.socket && id in c.subs {
        assert s.client.cmdId == c.cmdId || s.client.cmdId == c.cmdId + 1;
        if |s.sent| == 1 {
          assert s.sent[0].cmdId == s.client.cmdId;
          assert s.client.cmdId == c.cmdId + 1;
        }
      }
    case _ =>
  }

  /** Over any run from a client within the attempt bound, the bound holds
      at the end and every command carries a fresh id: the ids sent are
      strictly increasing and above the counter the run started from. */
  lemma {:induction false} RunInvariants(c: Client, events: seq<Event>, parse: TargetParser)
    requires c.reconnectAttempts <= c.config.maxReconnectAttempts
    ensures var r := Run(c, events, parse);
            && r.client.config == c.config
            && r.client.reconnectAttempts <= c.config.maxReconnectAttempts
            && c.cmdId <= r.client.cmdId
            && IssuedIn(r.sent, c.cmdId, r.client.cmdId)
    decreases |events|
  {
    if |events| > 0 {
      var first := Apply(c, events[0], parse);
      ApplyStep(c, events[0], parse);
      RunInvariants(first.client, events[1..], parse);
      var rest := Run(first.client, events[1..], parse);
      IssuedInAppend(first.sent, rest.sent, c.cmdId, first.client.cmdId, rest.client.cmdId);
    }
  }

  /** From a fresh client, ids never repeat and the attempts never exceed
      the configured maximum, whichever reading `unsubscribe` uses. */
  lemma FreshClientRun(config: Config, events: seq<Event>, parse: TargetParser)
    ensures var r := Run(NewClient(config), events, parse);
            && r.client.reconnectAttempts <= config.maxReconnectAttempts
            && (forall i, j :: 0 <= i < j < |r.sent| ==> r.sent[i].cmdId != r.sent[j].cmdId)
            && (forall i :: 0 <= i < |r.sent| ==> r.sent[i].cmdId >= 1)
  {
    RunInvariants(NewClient(config), events, parse);
  }
}
